=== FILE: README.md ===
# Reactive core of a small MVVM library, in Dafny

This project models the data-binding core of `src/mvvm.js`, a small MVVM
library:

- `resolveFn.getValue` and `resolveFn.setValue` walk a dot-separated
  binding expression over `vm.$data`;
- `Observer` turns every own property of every reachable object into a
  getter/setter pair over its own `Dep`;
- the getter subscribes the global `Dep.target`;
- the setter stores a changed value and `notify`s its `Dep`;
- a `Watcher` caches the value of one expression and calls its callback
  when a notification finds that value changed.

The model is a pure state machine:

- **Values** (`values.dfy`): the JavaScript values the core handles, and the
  canonical array-index keys.
- **Paths** (`paths.dfy`): `split('.')` and its inverse.
- **Heaps** (`heap.dfy`): the object graph as an explicit heap. An object
  is a list of fields, each a plain data property or a reactive accessor
  over a `Cell`. A `Cell` is what the accessor closes over: the captured
  value and the `Dep`'s subscriber list. `Walk` is the side-effect-free
  meaning of a path read.
- **Resolver** (`resolver.dfy`): the path read with its subscription side
  effects. It also shows that reads depend only on the data.
- **Observer** (`observer.dfy`): `observe`, `defineReactive` and the getter.
- **Depth** (`depth.dfy`): when `observe` returns. It returns exactly on
  values whose objects are finitely deep, which with the stack the model
  gives it are the values that reach no cycle. On a value that reaches a
  cycle it overflows.
- **Engine** (`engine.dfy`): the watcher table, `Dep.target`, and a log of
  callback invocations. It covers `getValue`, `Watcher.update`,
  `Dep.notify`, the reactive setter, `setValue`, `new Watcher` and
  `new Observer`.
- **Propagation** (`propagation.dfy`): dependency tracking and change
  propagation, characterised independently of the order of updates.
- **RoundTrip** (`roundtrip.dfy`): `getValue` after `setValue`, and the
  frame property of `setValue`.
- **Findings** (`findings.dfy`): the defect described under Findings, its
  counterexamples, and the corrected behaviour.

Every operation returns the state it leaves behind together with its result
or the fault it threw. A fault keeps whatever effects came before it, as the
JavaScript does.

The model follows the code in four places:

- Reading a missing key yields `undefined`, not an error.
- Only a property access on `undefined` or `null` throws (a `TypeError`).
- A `Watcher.get` whose read throws leaves `Dep.target` set. Every later
  read, `observe` and setter runs under that stale target, and each getter
  it goes through subscribes the target again.
- `Watcher.update` re-reads without setting `Dep.target`. It adds no
  subscription when `Dep.target` is null; under a stale target each getter
  on the path subscribes that target again.

Setter flag. The reactive setter and `setValue` take a flag `keep`:

- `false` is the code as written;
- `true` is the corrected behaviour of the finding below.

Every member about the library as written either uses `keep := false` or
holds for both values of the flag. The rows of the table below mark the
members that hold only for `keep := true` as "corrected".

## Model

| member | source | states |
|---|---|---|
| Paths.Split | src/mvvm.js:217 | `exp.split('.')` always yields at least one segment, no segment contains a dot, and gluing the segments back with dots gives the expression back |
| Paths.JoinSplit | src/mvvm.js:217 | splitting a dot-joined list of dot-free segments gives the list back, so split and join are inverse |
| Heaps.Step | src/mvvm.js:219 | `data[current]` throws exactly when `data` is `undefined` or `null`, and then with a TypeError; otherwise the value read lies inside the heap |
| Heaps.Walk | src/mvvm.js:217-220 | the `reduce` over the segments fails only with a TypeError, and a value it produces lies inside the heap |
| Resolver.Resolve | src/mvvm.js:139-143 | reading a path through the getters returns exactly the value of the side-effect-free walk and fails exactly where it does; it changes no object and no captured value; with no `Dep.target` it changes nothing at all |
| Resolver.ResolveSubscribes | src/mvvm.js:139-143 | after a read, each `Dep`'s subscriber list is the old list plus `Dep.target` once for every time the read went through that `Dep`'s getter, and nothing else |
| Resolver.WalkFrame | src/mvvm.js:225 | writing a location changes no path read that does not pass through that location |
| Resolver.StepReadsWrite | src/mvvm.js:225 | after `data[current] = value`, reading `data[current]` gives `value` |
| Observer.Observe | src/mvvm.js:118-133 | `observe` leaves primitives alone and fails only by stack overflow. It changes no readable value and only adds subscriptions of `Dep.target`; every accessor either stays or is replaced by a fresh one with the same value. On success every object reachable from the value along any path of property reads and array indices has only accessor properties. With `keep`, no existing accessor is replaced. No object the value does not reach changes. When it succeeds is characterised by `Depth.ObserveRanked` |
| Observer.ObserveElems | src/mvvm.js:120-123 | observing each element of an array in turn changes no readable value and no object that none of the elements reaches. On success, which `Depth.ElemsRanked` characterises, it leaves every object reachable from every element with only accessor properties |
| Observer.DefineAll | src/mvvm.js:129-131 | `defineReactive` over the keys from position `i` on changes no readable value and no object the record does not reach, and fails only by stack overflow. When it returns, which `Depth.DefineAllRanked` characterises, every one of those properties is an accessor and every object reachable from its value has only accessor properties |
| Observer.DefineReactive | src/mvvm.js:134-152 | no readable value changes, and no object the record does not reach; it fails only by stack overflow. When it returns, which `Depth.DefineReactiveRanked` characterises, the property is an accessor over a `Dep` that holds the property's current value, and every object reachable from that value has only accessor properties. With `keep`, an accessor already there is kept |
| Engine.GetValue | src/mvvm.js:216-221 | `getValue` returns the walk's value or its TypeError. It changes nothing but subscriber lists, which grow by `Dep.target` once per getter on the path. It changes nothing when `Dep.target` is null |
| Engine.Update | src/mvvm.js:99-105 | `update` re-reads its expression under the current `Dep.target`, changing no data. It adds no subscription when `Dep.target` is null; under a stale target each getter on the path subscribes that target again, and nothing else. On success it caches the new value, and appends exactly one callback with that value iff it is `!==` the cached one. On a throwing read, the cache and the callbacks stay unchanged |
| Engine.Notify | src/mvvm.js:70-72 | `notify` keeps every watcher's expression and every readable value. It only appends callbacks, each for a watcher in the subscriber list |
| Engine.Set | src/mvvm.js:144-150 | the setter does nothing on a `!==`-equal value. Otherwise, unless `observe` overflows, the setter's captured `value` (cell `c`) holds the new value afterwards; whether the property still reads it depends on `observe` not having redefined the property (see Findings). If `observe` overflows, it throws with the captured value and the log unchanged. Every callback it makes is for a subscriber the `Dep` had before the write, or for a `Dep.target` left active, which `observe(newVal)` may subscribe. It drops no subscription and changes no object the new value does not reach. With `keep` it keeps every accessor |
| Engine.Stored | src/mvvm.js:146-147 | after observing and storing, the setter's captured `value` (cell `c`) holds the new value; the property may meanwhile have been redefined over another cell. Its `Dep` keeps its subscribers, plus only `Dep.target`, and with no target exactly its subscribers. No object the new value does not reach changes |
| Engine.Assign | src/mvvm.js:225 | assigning a key keeps the root, the number of watchers and `Dep.target`. It only appends callbacks and drops no subscription. With `keep` it keeps every accessor. Assigning to a primitive changes nothing |
| Engine.AssignConfined | src/mvvm.js:225 | assigning a property of an object changes no object but that one and those the assigned value reaches |
| Engine.Write | src/mvvm.js:225 | a plain property or array element is overwritten, or a missing key is created as a plain property, without touching any accessor or subscription, or any other object |
| Engine.SetValue | src/mvvm.js:222-229 | `setValue` throws a TypeError without calling anyone back when a segment before the last is unreadable or yields `undefined`/`null`. It silently does nothing to a primitive. In every case it only appends callbacks, drops no subscription, and with `keep` keeps every accessor. It changes no object except the one the leading segments lead to and those the value reaches |
| Engine.NewWatcher | src/mvvm.js:87-98 | `new Watcher` appends a watcher. When the expression reads, it caches the expression's value and resets `Dep.target`. When the read throws, `Dep.target` stays set and `this.value` stays undefined. Either way the new watcher is subscribed once to each `Dep` per getter the read went through, and no data changes |
| Engine.Install | src/mvvm.js:108-111 | `new Observer(vm.$data)` changes no readable value and no object the data does not reach. On success, which happens exactly when the data reaches no cycle (`Depth.InstallAcyclic`), every object reachable from the data along any path has only accessor properties |
| Depth.ObserveRanked | src/mvvm.js:118-133 | `observe(v)` with `n` levels of stack returns iff every chain of property reads and array indices from `v` meets a primitive within `n` objects, and overflows otherwise |
| Depth.ElemsRanked | src/mvvm.js:120-123 | observing the elements of an array from `j` on returns iff each of those elements is ranked by the stack left |
| Depth.DefineAllRanked | src/mvvm.js:129-131 | `defineReactive` over the keys from position `i` on returns iff each of those properties' values is ranked by the stack left |
| Depth.DefineReactiveRanked | src/mvvm.js:134-152 | `defineReactive` of one property returns iff the property's value is ranked by the stack left; the getter read that precedes `observe(val)` does not change that |
| Depth.RankedSame | src/mvvm.js:118-152 | the rank of a value depends only on the values the heap holds, not on which properties are accessors or who is subscribed, so `observe` and the getters leave it alone |
| Depth.WalkRanked | src/mvvm.js:217-220 | every object a path read goes through from a value ranked by `n` uses up one level: a path of `k` reads that ends at an object has `k < n`, and that object is ranked by `n - k` |
| Depth.LoopUnranked | src/mvvm.js:118-133 | an object that a non-empty path of reads leads back to is ranked by no bound |
| Depth.AcyclicRanked | src/mvvm.js:118-133 | an object that reaches no cycle, and reaches only objects of a set `A`, is ranked by the size of `A` |
| Depth.ObserveAcyclic | src/mvvm.js:118-133 | `observe` returns on every value that reaches no object on a cycle, with one level of stack per object of the heap |
| Depth.ObserveOverflows | src/mvvm.js:118-133 | `observe` overflows on every value that reaches an object on a cycle, however deep the stack |
| Depth.InstallAcyclic | src/mvvm.js:108-111 | `new Observer(vm.$data)` returns iff the data reaches no cycle; then every object the data reaches has only accessor properties, and otherwise it throws a stack overflow |
| Depth.SetAcyclic | src/mvvm.js:144-150 | on a real change, the setter stores the new value iff the value reaches no cycle; on one that does, it throws a stack overflow before storing anything |
| Propagation.NewWatcherTracks | src/mvvm.js:93-97 | a new watcher is subscribed to a `Dep` iff reading its expression goes through that `Dep`'s getter |
| Propagation.ExpectedCallbacks | src/mvvm.js:99-105 | each expected callback of a notification is for a subscriber whose expression now reads a value `!==` its cache, carries that value, and no watcher is called twice |
| Propagation.ExpectedComplete | src/mvvm.js:70-72 | every subscriber whose expression now reads a different value is among the expected callbacks |
| Propagation.NotifyCallbacks | src/mvvm.js:63-73 | when no subscriber's read throws, `notify` makes exactly the expected callbacks, in order of first subscription. It refreshes the cache of every subscriber and touches no other watcher |
| Propagation.SetterCallbacks | src/mvvm.js:144-150 | a real change through the setter, with no `Dep.target` and no throwing read, makes exactly the expected callbacks of the `Dep`'s subscribers, judged on the state after the store |
| RoundTrip.SetWrites | src/mvvm.js:144-150 | with no `Dep.target`, the setter's effect on the heap is none on an equal value. Otherwise it is `observe` followed by the store, or only `observe` when that overflows |
| RoundTrip.AssignWrites | src/mvvm.js:225 | `data[current] = value` writes the location `data[current]` reads: a plain store, or the setter's effect for an accessor |
| RoundTrip.SetValueWrites | src/mvvm.js:222-229 | `setValue` on a path that names a location has exactly the heap effect of assigning that location |
| RoundTrip.SetValueSets | src/mvvm.js:222-229 | `setValue` on a path ending in an accessor is that accessor's setter |
| RoundTrip.SetWritesData | src/mvvm.js:144-150 | under any `Dep.target`, the setter's effect on the data is none on an equal value, and otherwise `observe` followed by the store, or only `observe` when that overflows; the notification only adds subscriptions |
| RoundTrip.AssignWritesData | src/mvvm.js:225 | under any `Dep.target`, `data[current] = value` writes the location `data[current]` reads: a plain store, or the setter's effect on the data |
| RoundTrip.SetValueWritesData | src/mvvm.js:222-229 | under any `Dep.target`, `setValue` on a path that names a location reads the leading segments without changing data, then writes the location: a plain store, or the setter's effect |
| RoundTrip.SetValueNoTarget | src/mvvm.js:222-229 | `setValue` on a path that names no location (it throws, its owner is a primitive, or it is an unmodelled array write) changes no data |
| RoundTrip.SetScalarWrites | src/mvvm.js:222-229 | under any `Dep.target`, `setValue` of a primitive to a location stores it there and changes no other data |
| RoundTrip.WriteReadsBack | src/mvvm.js:217-225 | writing the location a path's last segment names, when that location is not on the way to it, makes the path read the value written |
| RoundTrip.SetThenGet | src/mvvm.js:216-229 | `getValue` after `setValue` on the same path returns the value written |
| RoundTrip.SetScalarThenGet | src/mvvm.js:216-229 | under any `Dep.target`, a primitive written with `setValue` to a location that is not on its own path is read back by `getValue` |
| RoundTrip.SetValueFrame | src/mvvm.js:216-229 | under any `Dep.target`, `setValue` leaves unchanged the value of every path that does not pass through the location written, and of every path when it writes no location |
| Findings.LostUpdate | src/mvvm.js:144-150 | as written: after `x = a` on `{a: {b: 1}, x: null}`, the write `a.b = 2` changes the watched value of `a.b` but calls nobody back |
| Findings.WriteNotReadBack | src/mvvm.js:144-150 | as written: after `a.b = a` on the same data, `a.b` still reads `1` |
| Findings.NoLostUpdate | src/mvvm.js:144-150 | corrected: the same two writes call the watcher of `a.b` back once, with `2` |
| Findings.SetThenGetKeeping | src/mvvm.js:144-150 | corrected: with no `Dep.target` active, on a path that names a location not on its own way (`Writable`), `getValue` after `setValue` reads the value written whenever `observe` of a changed value does not overflow, which holds for every value that reaches no cycle (`Depth.ObserveAcyclic`) |
| Findings.NoSubscribers | src/mvvm.js:144-150 | with no `Dep.target` active, a changed value that `observe` takes without overflowing, written to an accessor without subscribers, is stored and calls nobody back |
| Findings.OneSubscriber | src/mvvm.js:144-150 | as written and corrected alike: a changed value that `observe` takes, written to an accessor with the single subscriber `w`, calls `w` back once with what its expression reads after the store when that is `!==` its cache, calls nobody when it is not, and throws the read's error, calling nobody, when the read throws |
| Findings.WatchedExactly | src/mvvm.js:87-98 | on any data of the shape `{a: {b: …}, x: …}`, `new Watcher('a.b')` returns the new watcher's index and leaves exactly this state: the watcher appended with `a.b`'s value cached, `Dep.target` reset, and the watcher subscribed once to the `Dep` of `a` and once to that of `a.b` |
| Findings.DemoWatched | src/mvvm.js:87-98 | the data `{a: {b: 1}, x: null}` with no watchers has that shape, so the state both findings start from (a watcher on `a.b` caching `1`, subscribed to the `Dep`s of `a` and `a.b`) is exactly what `new Watcher('a.b')` leaves on it |
| Findings.WatchedSubs | src/mvvm.js:87-98 | on any data of that shape, `new Watcher('a.b')` subscribes the new watcher once to the `Dep`s of `a` and of `a.b` and to no other `Dep` |

## Left out

- The `Compiler`, the DOM, text and `v-model` nodes, the `MVVM` constructor, `proxyData`, computed properties and methods: they are outside the reactive core.
- `console.log` in `getValue`: output only.
- Floating point, `NaN`, and JavaScript's other strict-equality corner cases: numbers are integers, and `!==` is inequality of values and of object identities.
- Heaps.Step: a string's `length` and its indices count Unicode code points, whereas JavaScript counts UTF-16 code units (a character outside the Basic Multilingual Plane such as U+1F600 has `length` 2 in JavaScript and 1 here), because Dafny strings are sequences of characters with no encoding.
- Prototype and inherited properties, and property order beyond insertion order: `Object.keys` is the field list.
- Array writes other than to an existing index (growing an array, writing `length`): they fail with `Unmodelled`. Arrays are not made reactive, as in the source.
- The callbacks themselves: a callback is recorded in the log and does not run. Callbacks that write back into the data, and the re-entrant notification that would cause, are not modelled.
- Observer.Observe: the call stack is modelled as a bound on the recursion, one level per object of the heap. With that bound `observe` overflows exactly on values that reach a cycle (`Depth.ObserveAcyclic`, `Depth.ObserveOverflows`); a real stack may also overflow on very deep acyclic data, which the model does not.
- RoundTrip.SetThenGet: proved only with no active `Dep.target`. It also needs that the location written is not on its own path (`Writable`), and that `observe` of the value keeps the accessor written (`ObserveKeeps`). The code as written breaks the last condition; see Findings.
- RoundTrip.SetScalarThenGet: needs the path to name a location that is not on its own way (`Writable`). Without a location the write is lost (assigning to a primitive, or an array write left out); with `a.a` on data whose `a` is the data itself, the scalar replaces the object the last segment is read from.
- Findings.SetThenGetKeeping: proved only with no active `Dep.target`: a target left active would be subscribed to the new value's `Dep`s by `observe(newVal)` and called back during the write. It is also proved only on a path that names a location not on its own way (`Writable`), as `RoundTrip.SetThenGet`, because a write that replaces an object on its own path makes the later read take a different way.
- Findings.NoSubscribers: proved only with no active `Dep.target`: a target left active would be subscribed to the `Dep` by `observe(newVal)` and then called back. It also assumes that `observe` of the value does not overflow, which `Depth.ObserveAcyclic` discharges for every value that reaches no cycle.
- Findings.OneSubscriber: proved only with no active `Dep.target`; a target left active would be subscribed by `observe(newVal)` and notified as well. The equal-value and overflow cases are those of `Engine.Set`.
- Propagation.NotifyCallbacks: characterised only when no subscriber's read throws. A throwing read stops the pass, which `Engine.Notify` models but no lemma characterises.
- Propagation.SetterCallbacks: proved only with no active `Dep.target`, the case of a write from the view.

## Findings

The setter observes its new value before storing it (`_this.observe(newVal)`
at src/mvvm.js:146). `observe` runs `defineReactive` on every property of an
object, including properties that are already accessors (src/mvvm.js:129-138).
So assigning an object that is already reactive replaces each of its
accessors with a fresh getter/setter pair over a fresh, empty `Dep`. The old
`Dep`, and every watcher subscribed to it, is dropped.

| source | as written | input that shows it | evidently intended | confidence | as-written member | corrected member |
|---|---|---|---|---|---|---|
| src/mvvm.js:144-150 | the setter's `observe(newVal)` redefines the accessors of an already reactive object, dropping their `Dep`s | data `{a: {b: 1}, x: null}`, a watcher on `a.b`; `setValue('x', data.a)`, then `setValue('a.b', 2)` | the watcher of `a.b` is called back with `2` | not executed | Findings.LostUpdate | Findings.NoLostUpdate |
| src/mvvm.js:144-150 | the value is stored into the closure of an accessor that `observe(newVal)` has just replaced | data `{a: {b: 1}, x: null}`; `setValue('a.b', data.a)`, then `getValue('a.b')` | `getValue` returns the object written | not executed | Findings.WriteNotReadBack | Findings.SetThenGetKeeping |

The correction leaves an accessor that is already in place alone: `observe`
still walks into its value, but does not redefine it. That is `keep := true`
in `Observer.DefineReactive`.

=== FILE: depth.dfy ===
/**
  When `observe` returns. `observe` has no guard against cycles: it recurses
  into every property value and every array element, so it returns exactly
  when the objects below the value are finitely deep, and overflows the
  stack otherwise.

  `Ranked(h, v, n)` says that every chain of property reads and array
  indices from `v` meets a primitive within `n` objects. `observe` with `n`
  levels of stack succeeds exactly on ranked values (`ObserveRanked`). Every
  value that reaches no cycle is ranked by the number of objects in the
  heap, which is the stack the model gives `observe` (`ObserveAcyclic`); a
  value that reaches a cycle is ranked by no bound at all, so `observe`
  overflows on it however deep the stack (`ObserveOverflows`).
 */
module Depth {
  import opened Values
  import opened Heaps
  import opened Resolver
  import opened Observer
  import opened Engine

  /** The values directly below an object, the ones `observe` recurses
      into: an array's elements, or an object's property values. */
  function Children(h: Heap, id: ObjId): (cs: seq<Val>)
    requires id < |h.objs|
    ensures h.objs[id].List? ==> cs == h.objs[id].elems
    ensures h.objs[id].Record? ==>
      && |cs| == |h.objs[id].fields|
      && forall i :: 0 <= i < |cs| ==> cs[i] == PropValue(h, h.objs[id].fields[i].prop)
  {
    match h.objs[id]
    case List(es) => es
    case Record(fs) => seq(|fs|, i requires 0 <= i < |fs| => PropValue(h, fs[i].prop))
  }

  /** Every chain of reads from `v` meets a primitive within `n` objects. */
  ghost predicate Ranked(h: Heap, v: Val, n: nat)
    decreases n, 1
  {
    v.Ref? ==> n > 0 && v.id < |h.objs| && AllRanked(h, Children(h, v.id), 0, n - 1)
  }

  /** The values of `vs` from `from` on are all ranked by `n`. */
  ghost predicate AllRanked(h: Heap, vs: seq<Val>, from: nat, n: nat)
    decreases n, 2, |vs| - from
  {
    from < |vs| ==> Ranked(h, vs[from], n) && AllRanked(h, vs, from + 1, n)
  }

  /** `AllRanked` says what its name says, element by element. */
  lemma {:induction false} AllRankedIff(h: Heap, vs: seq<Val>, from: nat, n: nat)
    ensures AllRanked(h, vs, from, n) <==> forall k :: from <= k < |vs| ==> Ranked(h, vs[k], n)
    decreases |vs| - from
  {
    if from < |vs| {
      AllRankedIff(h, vs, from + 1, n);
    }
  }

  /** The object `x` lies below itself: it is on a cycle. */
  ghost predicate OnCycle(h: Heap, x: ObjId) {
    Below(h, x, x)
  }

  /** No object that `v` reaches lies on a cycle. */
  ghost predicate Acyclic(h: Heap, v: Val) {
    forall x :: Reachable(h, v, x) ==> !OnCycle(h, x)
  }

  /** The rank depends only on the values, so `observe`, the getters and the
      setter's store leave it alone. */
  lemma {:induction false} RankedSame(h: Heap, h': Heap, v: Val, n: nat)
    requires SameValues(h, h')
    ensures Ranked(h', v, n) <==> Ranked(h, v, n)
    decreases n, 1
  {
    if v.Ref? && n > 0 && v.id < |h.objs| {
      assert SameNode(h, h', h.objs[v.id], h'.objs[v.id]);
      assert Children(h', v.id) == Children(h, v.id);
      AllRankedSame(h, h', Children(h, v.id), 0, n - 1);
    }
  }

  lemma {:induction false} AllRankedSame(h: Heap, h': Heap, vs: seq<Val>, from: nat, n: nat)
    requires SameValues(h, h')
    ensures AllRanked(h', vs, from, n) <==> AllRanked(h, vs, from, n)
    decreases n, 2, |vs| - from
  {
    if from < |vs| {
      RankedSame(h, h', vs[from], n);
      AllRankedSame(h, h', vs, from + 1, n);
    }
  }

  /** `observe(v)` with `fuel` levels of stack returns iff `v` is ranked by
      `fuel`, and otherwise overflows. */
  lemma {:induction false} ObserveRanked(h: Heap, v: Val, fuel: nat, t: Option<WatcherId>, keep: bool)
    requires Closed(h) && ValIn(h, v)
    ensures Observe(h, v, fuel, t, keep).res.Ok? <==> Ranked(h, v, fuel)
    decreases fuel, 0, 2
  {
    if !v.Ref? || fuel == 0 {
      ObserveLeaf(h, v, fuel, t, keep);
    } else {
      var f: nat := fuel - 1;
      assert fuel == f + 1;
      if h.objs[v.id].List? {
        ObserveListRanked(h, v.id, f, t, keep);
      } else {
        ObserveRecordRanked(h, v.id, f, t, keep);
      }
    }
  }

  /** `observe` returns at once on a primitive, and overflows on an object
      when no stack is left. */
  lemma ObserveLeaf(h: Heap, v: Val, fuel: nat, t: Option<WatcherId>, keep: bool)
    requires Closed(h) && ValIn(h, v) && (!v.Ref? || fuel == 0)
    ensures Observe(h, v, fuel, t, keep).res.Ok? <==> Ranked(h, v, fuel)
  {
  }

  /** `observe` on an array, with `f + 1` levels of stack, returns iff its
      elements are ranked by `f`. */
  lemma {:induction false} ObserveListRanked(h: Heap, id: ObjId, f: nat, t: Option<WatcherId>, keep: bool)
    requires Closed(h) && id < |h.objs| && h.objs[id].List?
    ensures Observe(h, Ref(id), f + 1, t, keep).res.Ok? <==> Ranked(h, Ref(id), f + 1)
    decreases f + 1, 0, 1
  {
    ElemsIn(h, id);
    ElemsRanked(h, h.objs[id].elems, 0, f, t, keep);
    ObserveList(h, id, f, t, keep);
  }

  /** `observe` on an object, with `f + 1` levels of stack, returns iff its
      property values are ranked by `f`. */
  lemma {:induction false} ObserveRecordRanked(h: Heap, id: ObjId, f: nat, t: Option<WatcherId>, keep: bool)
    requires Closed(h) && id < |h.objs| && h.objs[id].Record?
    ensures Observe(h, Ref(id), f + 1, t, keep).res.Ok? <==> Ranked(h, Ref(id), f + 1)
    decreases f + 1, 0, 1
  {
    DefineAllRanked(h, id, 0, f, t, keep);
    ObserveRecord(h, id, f, t, keep);
  }

  /** The elements of an array lie in the heap. */
  lemma ElemsIn(h: Heap, id: ObjId)
    requires Closed(h) && id < |h.objs| && h.objs[id].List?
    ensures forall k :: 0 <= k < |h.objs[id].elems| ==> ValIn(h, h.objs[id].elems[k])
  {
    assert NodeIn(h, h.objs[id]);
  }

  /** One level of `observe` on an array: it runs `observe` on every
      element, and the array is ranked iff its elements are ranked one
      level lower. */
  lemma ObserveList(h: Heap, id: ObjId, f: nat, t: Option<WatcherId>, keep: bool)
    requires Closed(h) && id < |h.objs| && h.objs[id].List?
    ensures forall k :: 0 <= k < |h.objs[id].elems| ==> ValIn(h, h.objs[id].elems[k])
    ensures Observe(h, Ref(id), f + 1, t, keep).res == ObserveElems(h, h.objs[id].elems, 0, f, t, keep).res
    ensures Ranked(h, Ref(id), f + 1) <==> AllRanked(h, h.objs[id].elems, 0, f)
  {
    assert NodeIn(h, h.objs[id]);
    assert Children(h, id) == h.objs[id].elems;
  }

  /** One level of `observe` on an object: it runs `defineReactive` on
      every property, and the object is ranked iff its property values are
      ranked one level lower. */
  lemma ObserveRecord(h: Heap, id: ObjId, f: nat, t: Option<WatcherId>, keep: bool)
    requires Closed(h) && id < |h.objs| && h.objs[id].Record?
    ensures Observe(h, Ref(id), f + 1, t, keep).res == DefineAll(h, id, 0, f, t, keep).res
    ensures Ranked(h, Ref(id), f + 1) <==> AllRanked(h, Children(h, id), 0, f)
  {
  }

  /** Observing the elements from `j` on returns iff each of them is ranked. */
  lemma {:induction false} ElemsRanked(h: Heap, es: seq<Val>, j: nat, fuel: nat, t: Option<WatcherId>, keep: bool)
    requires Closed(h) && j <= |es| && forall k :: 0 <= k < |es| ==> ValIn(h, es[k])
    ensures ObserveElems(h, es, j, fuel, t, keep).res.Ok? <==> AllRanked(h, es, j, fuel)
    decreases fuel, 1, |es| - j, 1
  {
    if j < |es| {
      ObserveRanked(h, es[j], fuel, t, keep);
      ElemsStepRanked(h, es, j, fuel, t, keep);
    }
  }

  /** The pass over the elements from `j` returns iff element `j` and the
      rest are ranked, given that this holds of element `j`. */
  lemma {:induction false} ElemsStepRanked(h: Heap, es: seq<Val>, j: nat, fuel: nat, t: Option<WatcherId>, keep: bool)
    requires Closed(h) && j < |es| && forall k :: 0 <= k < |es| ==> ValIn(h, es[k])
    requires Observe(h, es[j], fuel, t, keep).res.Ok? <==> Ranked(h, es[j], fuel)
    ensures ObserveElems(h, es, j, fuel, t, keep).res.Ok? <==> AllRanked(h, es, j, fuel)
    decreases fuel, 1, |es| - j, 0
  {
    var r1 := Observe(h, es[j], fuel, t, keep);
    if r1.res.Ok? {
      ElemsStep(h, es, j, fuel, t, keep);
      ElemsRanked(r1.st, es, j + 1, fuel, t, keep);
      AllRankedSame(h, r1.st, es, j + 1, fuel);
    }
  }

  /** One element of the pass: once it is observed, the rest run on the
      heap it leaves. */
  lemma ElemsStep(h: Heap, es: seq<Val>, j: nat, fuel: nat, t: Option<WatcherId>, keep: bool)
    requires Closed(h) && j < |es| && forall k :: 0 <= k < |es| ==> ValIn(h, es[k])
    requires Observe(h, es[j], fuel, t, keep).res.Ok?
    ensures var h1 := Observe(h, es[j], fuel, t, keep).st;
      && Closed(h1) && SameValues(h, h1) && (forall k :: 0 <= k < |es| ==> ValIn(h1, es[k]))
      && ObserveElems(h, es, j, fuel, t, keep).res == ObserveElems(h1, es, j + 1, fuel, t, keep).res
  {
    var h1 := Observe(h, es[j], fuel, t, keep).st;
    forall k | 0 <= k < |es| ensures ValIn(h1, es[k]) {
      assert ValIn(h, es[k]);
    }
  }

  /** `defineReactive` over the fields from `i` on returns iff each of their
      values is ranked. */
  lemma {:induction false} DefineAllRanked(h: Heap, id: ObjId, i: nat, fuel: nat, t: Option<WatcherId>, keep: bool)
    requires Closed(h) && id < |h.objs| && h.objs[id].Record? && i <= |h.objs[id].fields|
    ensures DefineAll(h, id, i, fuel, t, keep).res.Ok? <==> AllRanked(h, Children(h, id), i, fuel)
    decreases fuel, 1, |h.objs[id].fields| - i, 1
  {
    if i < |h.objs[id].fields| {
      DefineReactiveRanked(h, id, i, fuel, t, keep);
      DefineAllStepRanked(h, id, i, fuel, t, keep);
    }
  }

  /** The pass over the fields from `i` returns iff field `i` and the rest
      have ranked values, given that this holds of each part. */
  lemma {:induction false} DefineAllStepRanked(h: Heap, id: ObjId, i: nat, fuel: nat, t: Option<WatcherId>, keep: bool)
    requires Closed(h) && id < |h.objs| && h.objs[id].Record? && i < |h.objs[id].fields|
    requires DefineReactive(h, id, i, fuel, t, keep).res.Ok? <==> Ranked(h, Children(h, id)[i], fuel)
    ensures DefineAll(h, id, i, fuel, t, keep).res.Ok? <==> AllRanked(h, Children(h, id), i, fuel)
    decreases fuel, 1, |h.objs[id].fields| - i, 0
  {
    var r1 := DefineReactive(h, id, i, fuel, t, keep);
    DefineAllUnfold(h, id, i, fuel, t, keep);
    if r1.res.Ok? {
      DefineAllRanked(r1.st, id, i + 1, fuel, t, keep);
      AllRankedSame(h, r1.st, Children(h, id), i + 1, fuel);
    }
  }

  /** One field of the pass: it stops where `defineReactive` overflows, and
      otherwise goes on from the heap `defineReactive` leaves. */
  lemma DefineAllUnfold(h: Heap, id: ObjId, i: nat, fuel: nat, t: Option<WatcherId>, keep: bool)
    requires Closed(h) && id < |h.objs| && h.objs[id].Record? && i < |h.objs[id].fields|
    ensures var r1 := DefineReactive(h, id, i, fuel, t, keep);
      && (r1.res.Err? ==> DefineAll(h, id, i, fuel, t, keep).res == r1.res)
      && (r1.res.Ok? ==>
            && Closed(r1.st) && SameValues(h, r1.st) && r1.st.objs[id].Record?
            && |r1.st.objs[id].fields| == |h.objs[id].fields|
            && Children(r1.st, id) == Children(h, id)
            && DefineAll(h, id, i, fuel, t, keep).res == DefineAll(r1.st, id, i + 1, fuel, t, keep).res)
  {
    var r1 := DefineReactive(h, id, i, fuel, t, keep);
    if r1.res.Ok? {
      assert SameNode(h, r1.st, h.objs[id], r1.st.objs[id]);
      assert Children(r1.st, id) == Children(h, id);
    }
  }

  /** `defineReactive` of field `i` returns iff the field's value is ranked. */
  lemma {:induction false} DefineReactiveRanked(h: Heap, id: ObjId, i: nat, fuel: nat, t: Option<WatcherId>, keep: bool)
    requires Closed(h) && id < |h.objs| && h.objs[id].Record? && i < |h.objs[id].fields|
    ensures DefineReactive(h, id, i, fuel, t, keep).res.Ok? <==> Ranked(h, Children(h, id)[i], fuel)
    decreases fuel, 0, 3
  {
    var p := h.objs[id].fields[i].prop;
    assert NodeIn(h, h.objs[id]) && PropIn(h, p);
    var h0 := if p.Reactive? then Touch(h, Some(CellSlot(p.cell)), t) else h;
    PreservesGetter(h, p, t);
    ObserveRanked(h0, PropValue(h, p), fuel, t, keep);
    RankedSame(h, h0, PropValue(h, p), fuel);
  }

  /** A read from a ranked object yields a value ranked one level lower. */
  lemma StepRanked(h: Heap, x: ObjId, k: Key, n: nat)
    requires Closed(h) && x < |h.objs| && Ranked(h, Ref(x), n)
    ensures n > 0 && Ranked(h, Step(h, Ref(x), k).value.value, n - 1)
  {
    assert NodeIn(h, h.objs[x]);
    var cs := Children(h, x);
    AllRankedIff(h, cs, 0, n - 1);
    match h.objs[x]
    case List(es) =>
      var a := ArrayIndex(k);
      if k != "length" && a.Some? && a.value < |es| {
        assert Step(h, Ref(x), k).value.value == cs[a.value];
      }
    case Record(fs) =>
      match Lookup(fs, k)
      case None =>
      case Some(i) =>
        assert PropIn(h, fs[i].prop);
        assert Step(h, Ref(x), k).value.value == cs[i];
  }

  /** Every object a read goes through uses up one level of the rank. */
  lemma {:induction false} WalkRanked(h: Heap, v: Val, n: nat, segs: seq<Key>)
    requires Closed(h) && ValIn(h, v)
    ensures Ranked(h, v, n) && Walk(h, v, segs).Ok? && Walk(h, v, segs).value.Ref? ==>
      |segs| < n && Ranked(h, Walk(h, v, segs).value, n - |segs|)
    decreases |segs|
  {
    if |segs| > 0 {
      if !v.Ref? {
        PrimitiveWalk(h, v, segs);
      } else if Ranked(h, v, n) {
        StepRanked(h, v.id, segs[0], n);
        var u := Step(h, v, segs[0]).value.value;
        WalkRanked(h, u, n - 1, segs[1..]);
      }
    }
  }

  /** A path from a ranked value to the object `x` uses up part of the
      rank, and leaves `x` ranked by the rest. */
  lemma WalkRankedTo(h: Heap, v: Val, n: nat, segs: seq<Key>, x: ObjId)
    requires Closed(h) && ValIn(h, v) && Walk(h, v, segs) == Ok(Ref(x))
    ensures Ranked(h, v, n) ==> |segs| < n && Ranked(h, Ref(x), n - |segs|)
  {
    WalkRanked(h, v, n, segs);
  }

  /** An object that a non-empty path leads back to is ranked by no
      bound. */
  lemma {:induction false} LoopUnranked(h: Heap, x: ObjId, loop: seq<Key>, n: nat)
    requires Closed(h) && x < |h.objs| && |loop| > 0 && Walk(h, Ref(x), loop) == Ok(Ref(x))
    ensures !Ranked(h, Ref(x), n)
    decreases n
  {
    WalkRankedTo(h, Ref(x), n, loop, x);
    if |loop| < n {
      var m: nat := n - |loop|;
      LoopUnranked(h, x, loop, m);
    }
  }

  /** An object with a path to an object that a non-empty path leads back
      to is ranked by no bound. */
  lemma ReachLoopUnranked(h: Heap, y: ObjId, segs: seq<Key>, x: ObjId, loop: seq<Key>, n: nat)
    requires Closed(h) && y < |h.objs| && Walk(h, Ref(y), segs) == Ok(Ref(x))
    requires |loop| > 0 && Walk(h, Ref(x), loop) == Ok(Ref(x))
    ensures !Ranked(h, Ref(y), n)
  {
    WalkRankedTo(h, Ref(y), n, segs, x);
    if |segs| < n {
      var m: nat := n - |segs|;
      LoopUnranked(h, x, loop, m);
    }
  }

  /** Only an object leads to an object. */
  lemma WalkFromRef(h: Heap, v: Val, segs: seq<Key>, x: ObjId)
    requires Closed(h) && ValIn(h, v)
    ensures Walk(h, v, segs) == Ok(Ref(x)) ==> v.Ref?
  {
    if !v.Ref? {
      PrimitiveWalk(h, v, segs);
    }
  }

  /** The children of an object lie in the heap. */
  lemma ChildIn(h: Heap, x: ObjId, j: nat)
    requires Closed(h) && x < |h.objs| && j < |Children(h, x)|
    ensures ValIn(h, Children(h, x)[j])
  {
    assert NodeIn(h, h.objs[x]);
    if h.objs[x].Record? {
      assert PropIn(h, h.objs[x].fields[j].prop);
    }
  }

  /** What a child of `x` reaches lies below `x`. */
  lemma ReachChild(h: Heap, x: ObjId, j: nat, z: ObjId)
    requires Closed(h) && x < |h.objs| && j < |Children(h, x)|
    requires Reachable(h, Children(h, x)[j], z)
    ensures Reachable(h, Ref(x), z) && Below(h, x, z)
  {
    if h.objs[x].List? {
      ReachElem(h, x, j, z);
    } else {
      ReachField(h, x, j, z);
    }
  }

  /** An object that reaches no cycle, and reaches only objects of `A`, is
      ranked by the size of `A`. */
  lemma {:induction false} AcyclicRanked(h: Heap, x: ObjId, A: set<ObjId>)
    requires Closed(h) && x < |h.objs|
    requires forall z :: Reachable(h, Ref(x), z) ==> z in A && !OnCycle(h, z)
    ensures Ranked(h, Ref(x), |A|)
    decreases |A|
  {
    ReachSelf(h, x);
    var B := A - {x};
    var m: nat := |B|;
    assert |A| == m + 1;
    var cs := Children(h, x);
    forall j | 0 <= j < |cs| ensures Ranked(h, cs[j], m) {
      ChildIn(h, x, j);
      if cs[j].Ref? {
        forall z | Reachable(h, cs[j], z) ensures z in B && !OnCycle(h, z) {
          ReachChild(h, x, j, z);
        }
        AcyclicRanked(h, cs[j].id, B);
      }
    }
    AllRankedIff(h, cs, 0, m);
  }

  /** The object ids of a heap with `n` objects: `n` of them. */
  function Ids(n: nat): (A: set<ObjId>)
    ensures |A| == n && forall z: nat :: z in A <==> z < n
  {
    if n == 0 then {} else
      var B := Ids(n - 1);
      assert n - 1 !in B;
      B + {n - 1}
  }

  /** `observe` of a value that reaches no cycle returns, with the stack
      the model gives it: one level per object of the heap. */
  lemma ObserveAcyclic(h: Heap, v: Val, t: Option<WatcherId>, keep: bool)
    requires Closed(h) && ValIn(h, v) && Acyclic(h, v)
    ensures Observe(h, v, |h.objs|, t, keep).res.Ok?
  {
    if v.Ref? {
      var A := Ids(|h.objs|);
      forall z | Reachable(h, v, z) ensures z in A && !OnCycle(h, z) {
        var segs :| Walk(h, v, segs) == Ok(Ref(z));
      }
      AcyclicRanked(h, v.id, A);
    }
    ObserveRanked(h, v, |h.objs|, t, keep);
  }

  /** `observe` of a value that reaches a cycle overflows, however deep the
      stack. */
  lemma ObserveOverflows(h: Heap, v: Val, x: ObjId, fuel: nat, t: Option<WatcherId>, keep: bool)
    requires Closed(h) && ValIn(h, v) && Reachable(h, v, x) && OnCycle(h, x)
    ensures Observe(h, v, fuel, t, keep).res == Err(StackOverflow)
  {
    var segs :| Walk(h, v, segs) == Ok(Ref(x));
    var loop :| |loop| > 0 && Walk(h, Ref(x), loop) == Ok(Ref(x));
    WalkFromRef(h, v, segs, x);
    ReachLoopUnranked(h, v.id, segs, x, loop, fuel);
    ObserveRanked(h, v, fuel, t, keep);
  }

  /** `new Observer(vm.$data)` returns iff the data reaches no cycle, and
      then every object the data reaches has only accessor properties. */
  lemma InstallAcyclic(st: State)
    requires Valid(st)
    ensures Install(st).res.Ok? <==> Acyclic(st.heap, st.root)
    ensures Acyclic(st.heap, st.root) ==> DeepInstalled(Install(st).st.heap, st.root)
    ensures !Acyclic(st.heap, st.root) ==> Install(st).res == Err(StackOverflow)
  {
    if Acyclic(st.heap, st.root) {
      ObserveAcyclic(st.heap, st.root, st.target, false);
    } else {
      var x :| Reachable(st.heap, st.root, x) && OnCycle(st.heap, x);
      ObserveOverflows(st.heap, st.root, x, |st.heap.objs|, st.target, false);
    }
  }

  /** The reactive setter, on a real change, stores the new value iff the
      value reaches no cycle; on one that does, it overflows before storing
      anything. */
  lemma SetAcyclic(st: State, c: CellId, v: Val, keep: bool)
    requires Valid(st) && c < |st.heap.cells| && ValIn(st.heap, v) && v != st.heap.cells[c].value
    ensures Set(st, c, v, keep).st.heap.cells[c].value == v <==> Acyclic(st.heap, v)
    ensures !Acyclic(st.heap, v) ==> Set(st, c, v, keep).res == Err(StackOverflow)
  {
    if Acyclic(st.heap, v) {
      ObserveAcyclic(st.heap, v, st.target, keep);
    } else {
      var x :| Reachable(st.heap, v, x) && OnCycle(st.heap, x);
      ObserveOverflows(st.heap, v, x, |st.heap.objs|, st.target, keep);
    }
  }
}

=== FILE: engine.dfy ===
/**
  The change-propagation engine as a functional state machine: the heap of
  reactive cells, the table of watchers, the global `Dep.target`, and a log
  standing for the watcher callbacks. Every operation returns the state it
  leaves behind together with its result or the fault it threw; a thrown
  fault keeps whatever the operation had already done, as the JavaScript
  does.
 */
module Engine {
  import opened Values
  import opened Paths
  import opened Heaps
  import opened Resolver
  import opened Observer

  /** A `Watcher`: its binding expression and the value it last saw
      (`this.value`). The vm is the engine's one root; the callback is
      modelled by the log. */
  datatype Watcher = Watcher(path: string, cached: Val)

  /** One invocation `cb(newValue)` of watcher `watcher`'s callback. */
  datatype Callback = Callback(watcher: WatcherId, value: Val)

  /** `root` is `vm.$data`; `target` is `Dep.target`. */
  datatype State = State(
    heap: Heap,
    root: Val,
    watchers: seq<Watcher>,
    target: Option<WatcherId>,
    log: seq<Callback>)

  ghost predicate SubsBelow(h: Heap, n: nat) {
    forall c, j :: 0 <= c < |h.cells| && 0 <= j < |h.cells[c].subs| ==> h.cells[c].subs[j] < n
  }

  ghost predicate Valid(st: State) {
    && Closed(st.heap)
    && ValIn(st.heap, st.root)
    && (forall w :: 0 <= w < |st.watchers| ==> ValIn(st.heap, st.watchers[w].cached))
    && (st.target.Some? ==> st.target.value < |st.watchers|)
    && SubsBelow(st.heap, |st.watchers|)
  }

  lemma SubsBelowExtends(h: Heap, h': Heap, t: Option<WatcherId>, n: nat)
    requires Extends(h, h', t) && SubsBelow(h, n) && (t.Some? ==> t.value < n)
    ensures SubsBelow(h', n)
  {
    forall c, j | 0 <= c < |h'.cells| && 0 <= j < |h'.cells[c].subs| ensures h'.cells[c].subs[j] < n {
      if c < |h.cells| {
        var s, s' := h.cells[c].subs, h'.cells[c].subs;
        assert SubsGrow(s, s', t);
        if j < |s| {
          assert s'[j] == s'[..|s|][j];
        }
      } else {
        assert SubsGrow([], h'.cells[c].subs, t);
      }
    }
  }

  lemma SubsBelowMore(h: Heap, n: nat, m: nat)
    requires SubsBelow(h, n) && n <= m
    ensures SubsBelow(h, m)
  {
  }

  lemma CopiesGrow(s: seq<WatcherId>, t: Option<WatcherId>, n: nat)
    ensures SubsGrow(s, s + Copies(t, n), t)
    decreases n
  {
    assert (s + Copies(t, n))[..|s|] == s;
    if t.Some? && n > 0 {
      CopiesGrow(s + [t.value], t, n - 1);
      assert s + Copies(t, n) == (s + [t.value]) + Copies(t, n - 1);
    }
  }

  lemma SameDataTrans(h1: Heap, h2: Heap, h3: Heap)
    requires SameData(h1, h2) && SameData(h2, h3)
    ensures SameData(h1, h3)
  {
  }

  lemma SameDataRefl(h: Heap)
    ensures SameData(h, h)
  {
  }

  /** No subscription is ever dropped: every `Dep` keeps its list as a
      prefix of its new one. */
  ghost predicate SubsKept(h: Heap, h': Heap) {
    && |h.cells| <= |h'.cells|
    && forall c :: 0 <= c < |h.cells| ==>
         |h.cells[c].subs| <= |h'.cells[c].subs| && h'.cells[c].subs[..|h.cells[c].subs|] == h.cells[c].subs
  }

  lemma ExtendsSubsKept(h: Heap, h': Heap, t: Option<WatcherId>)
    requires Extends(h, h', t)
    ensures SubsKept(h, h')
  {
    forall c | 0 <= c < |h.cells|
      ensures |h.cells[c].subs| <= |h'.cells[c].subs| && h'.cells[c].subs[..|h.cells[c].subs|] == h.cells[c].subs
    {
      assert SubsGrow(h.cells[c].subs, h'.cells[c].subs, t);
    }
  }

  lemma SubsKeptTrans(h1: Heap, h2: Heap, h3: Heap)
    requires SubsKept(h1, h2) && SubsKept(h2, h3)
    ensures SubsKept(h1, h3)
  {
    forall c | 0 <= c < |h1.cells|
      ensures |h1.cells[c].subs| <= |h3.cells[c].subs| && h3.cells[c].subs[..|h1.cells[c].subs|] == h1.cells[c].subs
    {
      var s1, s2, s3 := h1.cells[c].subs, h2.cells[c].subs, h3.cells[c].subs;
      assert s3[..|s1|] == s3[..|s2|][..|s1|];
    }
  }

  /** A plain store leaves every accessor and every subscription in place. */
  lemma WriteSlotKeeps(h: Heap, s: Slot, v: Val)
    requires Closed(h) && SlotIn(h, s) && ValIn(h, v)
    ensures KeepsAccessors(h, WriteSlot(h, s, v))
    ensures SubsKept(h, WriteSlot(h, s, v))
  {
    var h' := WriteSlot(h, s, v);
    forall c | 0 <= c < |h.cells|
      ensures |h.cells[c].subs| <= |h'.cells[c].subs| && h'.cells[c].subs[..|h.cells[c].subs|] == h.cells[c].subs
    {
      assert h'.cells[c].subs == h.cells[c].subs;
    }
  }

  // ---------------------------------------------------------------------
  // Reading: resolveFn.getValue
  // ---------------------------------------------------------------------

  /** The value watcher `w`'s expression denotes right now. */
  function Fresh(st: State, w: WatcherId): Result<Val>
    requires Valid(st) && w < |st.watchers|
  {
    Walk(st.heap, st.root, Split(st.watchers[w].path))
  }

  /** `exp.split('.').reduce((data, current) => data[current], vm.$data)`
      for an already split path. */
  function ReadPath(st: State, segs: seq<Key>): (r: Outcome<State, Val>)
    requires Valid(st)
    ensures Valid(r.st)
    ensures r.res == Walk(st.heap, st.root, segs)
    ensures r.st == st.(heap := r.st.heap)
    ensures SameData(st.heap, r.st.heap) && Extends(st.heap, r.st.heap, st.target)
    ensures st.target.None? ==> r.st == st
    ensures forall c :: 0 <= c < |st.heap.cells| ==>
      r.st.heap.cells[c].subs
        == st.heap.cells[c].subs + Copies(st.target, multiset(WalkSlots(st.heap, st.root, segs))[CellSlot(c)])
  {
    var h := st.heap;
    var r := Resolve(h, st.root, segs, st.target);
    forall c | 0 <= c < |h.cells|
      ensures r.st.cells[c].subs
        == h.cells[c].subs + Copies(st.target, multiset(WalkSlots(h, st.root, segs))[CellSlot(c)])
      ensures SubsGrow(h.cells[c].subs, r.st.cells[c].subs, st.target)
    {
      ResolveSubscribes(h, st.root, segs, st.target, c);
      CopiesGrow(h.cells[c].subs, st.target, multiset(WalkSlots(h, st.root, segs))[CellSlot(c)]);
    }
    assert Extends(h, r.st, st.target);
    SubsBelowExtends(h, r.st, st.target, |st.watchers|);
    Outcome(st.(heap := r.st), r.res)
  }

  /** `resolveFn.getValue(vm, exp)`: the value `Walk` denotes, read with the
      current `Dep.target`, so that every reactive getter on the path
      subscribes the target once per read and nothing else changes. */
  function GetValue(st: State, path: string): (r: Outcome<State, Val>)
    requires Valid(st)
    ensures Valid(r.st)
    ensures r.res == Walk(st.heap, st.root, Split(path))
    ensures r.st == st.(heap := r.st.heap)
    ensures SameData(st.heap, r.st.heap) && Extends(st.heap, r.st.heap, st.target)
    ensures st.target.None? ==> r.st == st
    ensures forall c :: 0 <= c < |st.heap.cells| ==>
      r.st.heap.cells[c].subs
        == st.heap.cells[c].subs + Copies(st.target, multiset(WalkSlots(st.heap, st.root, Split(path)))[CellSlot(c)])
  {
    ReadPath(st, Split(path))
  }

  // ---------------------------------------------------------------------
  // Watchers: Watcher.update and Dep.notify
  // ---------------------------------------------------------------------

  /** `Watcher.update`: re-read the expression WITHOUT setting `Dep.target`;
      call back with the new value exactly when it is `!==` the cached one,
      and cache it. A read that throws leaves cache and log alone. */
  function Update(st: State, w: WatcherId): (r: Outcome<State, ()>)
    requires Valid(st) && w < |st.watchers|
    ensures Valid(r.st)
    ensures r.st.root == st.root && r.st.target == st.target
    ensures SameData(st.heap, r.st.heap) && Extends(st.heap, r.st.heap, st.target)
    ensures st.target.None? ==> r.st.heap == st.heap
    ensures Fresh(st, w).Err? ==>
      r.res == Err(Fresh(st, w).fault) && r.st.watchers == st.watchers && r.st.log == st.log
    ensures Fresh(st, w).Ok? ==>
      && r.res.Ok?
      && r.st.watchers == st.watchers[w := Watcher(st.watchers[w].path, Fresh(st, w).value)]
      && r.st.log == st.log + (if Fresh(st, w).value != st.watchers[w].cached
                               then [Callback(w, Fresh(st, w).value)] else [])
  {
    var g := GetValue(st, st.watchers[w].path);
    match g.res
    case Err(f) => Outcome(g.st, Err(f))
    case Ok(v) =>
      if v != st.watchers[w].cached then
        Outcome(g.st.(log := g.st.log + [Callback(w, v)],
                      watchers := g.st.watchers[w := Watcher(st.watchers[w].path, v)]), Ok(()))
      else
        assert st.watchers[w := Watcher(st.watchers[w].path, v)] == st.watchers;
        assert st.log + [] == st.log;
        Outcome(g.st, Ok(()))
  }

  predicate AllBelow(ws: seq<WatcherId>, n: nat) {
    forall j :: 0 <= j < |ws| ==> ws[j] < n
  }

  /** The watchers watch the same expressions, whatever they have cached. */
  predicate SamePaths(ws: seq<Watcher>, ws': seq<Watcher>) {
    |ws| == |ws'| && forall w :: 0 <= w < |ws| ==> ws'[w].path == ws[w].path
  }

  lemma SamePathsStep(ws: seq<Watcher>, ws1: seq<Watcher>, ws2: seq<Watcher>, w: WatcherId)
    requires SamePaths(ws, ws1) && w < |ws1|
    requires ws2 == ws1 || exists v :: ws2 == ws1[w := Watcher(ws1[w].path, v)]
    ensures SamePaths(ws, ws2)
  {
  }

  /** One more `update` of a notification pass keeps the log a record of
      callbacks to watchers of the list. */
  lemma LogStep(log0: seq<Callback>, pl: seq<Callback>, rl: seq<Callback>, ws: seq<WatcherId>)
    requires |ws| > 0
    requires |log0| <= |pl| && pl[..|log0|] == log0
    requires forall j :: |log0| <= j < |pl| ==> pl[j].watcher in ws[..|ws| - 1]
    requires rl == pl || (|rl| > 0 && rl == pl + [Callback(ws[|ws| - 1], rl[|rl| - 1].value)])
    ensures |log0| <= |rl| && rl[..|log0|] == log0
    ensures forall j :: |log0| <= j < |rl| ==> rl[j].watcher in ws
  {
    assert rl[..|log0|] == pl[..|log0|];
    forall j | |log0| <= j < |rl| ensures rl[j].watcher in ws {
      if j < |pl| {
        assert rl[j] == pl[j];
        assert pl[j].watcher in ws[..|ws| - 1];
      }
    }
  }

  /** `Dep.notify`: `update` every watcher of the list, in order, each once
      per occurrence; a throwing `update` stops the pass. */
  function Notify(st: State, ws: seq<WatcherId>): (r: Outcome<State, ()>)
    requires Valid(st) && AllBelow(ws, |st.watchers|)
    ensures Valid(r.st)
    ensures r.st.root == st.root && r.st.target == st.target
    ensures |r.st.watchers| == |st.watchers|
    ensures SamePaths(st.watchers, r.st.watchers)
    ensures SameData(st.heap, r.st.heap) && Extends(st.heap, r.st.heap, st.target)
    ensures st.target.None? ==> r.st.heap == st.heap
    ensures |st.log| <= |r.st.log| && r.st.log[..|st.log|] == st.log
    ensures forall j :: |st.log| <= j < |r.st.log| ==> r.st.log[j].watcher in ws
    decreases |ws|
  {
    if |ws| == 0 then
      SameDataRefl(st.heap);
      ExtendsRefl(st.heap, st.target);
      Outcome(st, Ok(()))
    else
      var p := Notify(st, ws[..|ws| - 1]);
      if p.res.Err? then p
      else
        var r := Update(p.st, ws[|ws| - 1]);
        SamePathsStep(st.watchers, p.st.watchers, r.st.watchers, ws[|ws| - 1]);
        SameDataTrans(st.heap, p.st.heap, r.st.heap);
        ExtendsTrans(st.heap, p.st.heap, r.st.heap, st.target);
        LogStep(st.log, p.st.log, r.st.log, ws);
        r
  }

  // ---------------------------------------------------------------------
  // Writing: the reactive setter and resolveFn.setValue
  // ---------------------------------------------------------------------

  /** A callback made by notifying the grown subscriber list `s'` is for an
      old subscriber or for the watcher that grew it. */
  lemma FromOldSubs(s: seq<WatcherId>, s': seq<WatcherId>, t: Option<WatcherId>,
                    log0: seq<Callback>, log: seq<Callback>)
    requires SubsGrow(s, s', t) && |log0| <= |log|
    requires forall j :: |log0| <= j < |log| ==> log[j].watcher in s'
    ensures forall j :: |log0| <= j < |log| ==> log[j].watcher in s || t == Some(log[j].watcher)
  {
    forall j | |log0| <= j < |log| ensures log[j].watcher in s || t == Some(log[j].watcher) {
      var k :| 0 <= k < |s'| && s'[k] == log[j].watcher;
      if k < |s| {
        assert s'[k] == s'[..|s|][k];
      }
    }
  }

  /** The state the setter of cell `c` notifies from: `v` observed, then
      stored. */
  function Stored(st: State, c: CellId, v: Val, keep: bool): (r: State)
    requires Valid(st) && c < |st.heap.cells| && ValIn(st.heap, v)
    requires Observe(st.heap, v, |st.heap.objs|, st.target, keep).res.Ok?
    ensures Valid(r)
    ensures r.root == st.root && r.watchers == st.watchers && r.log == st.log && r.target == st.target
    ensures |st.heap.cells| <= |r.heap.cells| && r.heap.cells[c].value == v
    ensures SubsGrow(st.heap.cells[c].subs, r.heap.cells[c].subs, st.target)
    ensures st.target.None? ==> r.heap.cells[c].subs == st.heap.cells[c].subs
    ensures SubsKept(st.heap, r.heap)
    ensures keep ==> KeepsAccessors(st.heap, r.heap)
    ensures Confined(st.heap, r.heap, v)
  {
    var o := Observe(st.heap, v, |st.heap.objs|, st.target, keep);
    SubsBelowExtends(st.heap, o.st, st.target, |st.watchers|);
    assert SameValues(st.heap, o.st);
    ExtendsSubsKept(st.heap, o.st, st.target);
    var h1 := WriteSlot(o.st, CellSlot(c), v);
    WriteSlotKeeps(o.st, CellSlot(c), v);
    SubsKeptTrans(st.heap, o.st, h1);
    assert forall d :: 0 <= d < |h1.cells| ==> h1.cells[d].subs == o.st.cells[d].subs;
    st.(heap := h1)
  }

  /** The setter `defineReactive` installs, for the property over cell `c`:
      on a `!==` change, observe the new value, store it, notify the `Dep`;
      on an equal value, do nothing at all. `keep` is passed on to
      `Observe`: false is the setter as written. */
  function Set(st: State, c: CellId, v: Val, keep: bool): (r: Outcome<State, ()>)
    requires Valid(st) && c < |st.heap.cells| && ValIn(st.heap, v)
    ensures Valid(r.st)
    ensures r.st.root == st.root && r.st.target == st.target
    ensures |r.st.watchers| == |st.watchers|
    ensures |st.log| <= |r.st.log| && r.st.log[..|st.log|] == st.log
    ensures |st.heap.cells| <= |r.st.heap.cells|
    ensures forall j :: |st.log| <= j < |r.st.log| ==>
      r.st.log[j].watcher in st.heap.cells[c].subs || st.target == Some(r.st.log[j].watcher)
    ensures SubsKept(st.heap, r.st.heap)
    ensures keep ==> KeepsAccessors(st.heap, r.st.heap)
    ensures Confined(st.heap, r.st.heap, v)
    ensures v == st.heap.cells[c].value ==> r == Outcome(st, Ok(()))
    ensures v != st.heap.cells[c].value &&
            Observe(st.heap, v, |st.heap.objs|, st.target, keep).res.Ok? ==>
              r.st.heap.cells[c].value == v
    ensures v != st.heap.cells[c].value &&
            Observe(st.heap, v, |st.heap.objs|, st.target, keep).res.Err? ==>
              r.res == Err(StackOverflow) && r.st.heap.cells[c].value == st.heap.cells[c].value &&
              r.st.log == st.log && r.st.watchers == st.watchers
  {
    if v == st.heap.cells[c].value then Outcome(st, Ok(()))
    else
      var o := Observe(st.heap, v, |st.heap.objs|, st.target, keep);
      SubsBelowExtends(st.heap, o.st, st.target, |st.watchers|);
      assert SameValues(st.heap, o.st);
      ExtendsSubsKept(st.heap, o.st, st.target);
      if o.res.Err? then
        assert Valid(st.(heap := o.st));
        Outcome(st.(heap := o.st), Err(o.res.fault))
      else
        var st1 := Stored(st, c, v, keep);
        var r := Notify(st1, st1.heap.cells[c].subs);
        FromOldSubs(st.heap.cells[c].subs, st1.heap.cells[c].subs, st.target, st.log, r.st.log);
        ExtendsSubsKept(st1.heap, r.st.heap, st.target);
        SubsKeptTrans(st.heap, st1.heap, r.st.heap);
        r
  }

  /** `data[current] = value`, the last step of `setValue`. Assigning on
      `undefined` or `null` throws; on another primitive it is silently
      dropped (the script is not strict); a reactive property runs its
      setter; a data property is overwritten; a missing key is created as a
      plain, non-reactive data property. */
  function Assign(st: State, u: Val, k: Key, v: Val, keep: bool): (r: Outcome<State, ()>)
    requires Valid(st) && ValIn(st.heap, u) && ValIn(st.heap, v)
    ensures Valid(r.st)
    ensures r.st.root == st.root && r.st.target == st.target
    ensures |r.st.watchers| == |st.watchers|
    ensures |st.log| <= |r.st.log| && r.st.log[..|st.log|] == st.log
    ensures SubsKept(st.heap, r.st.heap)
    ensures keep ==> KeepsAccessors(st.heap, r.st.heap)
    ensures !u.Ref? ==> r.st == st
  {
    match u
    case Undefined => Outcome(st, Err(TypeError))
    case Null => Outcome(st, Err(TypeError))
    case Ref(id) =>
      (match st.heap.objs[id]
       case List(es) =>
         (match ArrayIndex(k)
          case Some(i) =>
            if i < |es| then Write(st, ElemSlot(id, i), v) else Outcome(st, Err(Unmodelled))
          case None => Outcome(st, Err(Unmodelled)))
       case Record(fs) =>
         match Lookup(fs, k)
         case None => Write(st, KeySlot(id, k), v)
         case Some(i) =>
           assert NodeIn(st.heap, st.heap.objs[id]) && PropIn(st.heap, fs[i].prop);
           match fs[i].prop
           case Plain(_) => Write(st, KeySlot(id, k), v)
           case Reactive(c) => Set(st, c, v, keep))
    case _ => Outcome(st, Ok(()))
  }

  /** An assignment to a property of the object `id` changes no object but
      `id` and those the assigned value reaches: the setter observes the
      value, a plain store changes `id` only. */
  lemma AssignConfined(st: State, id: ObjId, k: Key, v: Val, keep: bool)
    requires Valid(st) && id < |st.heap.objs| && ValIn(st.heap, v)
    ensures ConfinedBut(st.heap, Assign(st, Ref(id), k, v, keep).st.heap, id, v)
  {
    match st.heap.objs[id]
    case List(es) =>
    case Record(fs) =>
      match Lookup(fs, k)
      case None =>
      case Some(i) =>
        assert NodeIn(st.heap, st.heap.objs[id]) && PropIn(st.heap, fs[i].prop);
        match fs[i].prop
        case Plain(_) =>
        case Reactive(c) =>
          ConfinedWiden(st.heap, Set(st, c, v, keep).st.heap, id, v);
  }

  /** A plain store into a non-reactive location. */
  function Write(st: State, s: Slot, v: Val): (r: Outcome<State, ()>)
    requires Valid(st) && SlotIn(st.heap, s) && !s.CellSlot? && ValIn(st.heap, v)
    ensures Valid(r.st)
    ensures r.st == st.(heap := WriteSlot(st.heap, s, v)) && r.res.Ok?
    ensures SubsKept(st.heap, r.st.heap) && KeepsAccessors(st.heap, r.st.heap)
    ensures r.st.heap.cells == st.heap.cells && |r.st.heap.objs| == |st.heap.objs|
    ensures forall x :: 0 <= x < |st.heap.objs| && x != s.id ==> r.st.heap.objs[x] == st.heap.objs[x]
  {
    var h := WriteSlot(st.heap, s, v);
    WriteSlotKeeps(st.heap, s, v);
    assert forall w :: 0 <= w < |st.watchers| ==> ValIn(h, st.watchers[w].cached);
    Outcome(st.(heap := h), Ok(()))
  }

  /** `resolveFn.setValue(vm, exp, value)`: read every segment but the last
      (through the getters, with the current `Dep.target`), then assign the
      last one. `keep` is passed on to the setter: false is `setValue` as
      written. */
  function SetValue(st: State, path: string, v: Val, keep: bool): (r: Outcome<State, ()>)
    requires Valid(st) && ValIn(st.heap, v)
    ensures Valid(r.st)
    ensures r.st.root == st.root && r.st.target == st.target
    ensures |r.st.watchers| == |st.watchers|
    ensures |st.log| <= |r.st.log| && r.st.log[..|st.log|] == st.log
    ensures SubsKept(st.heap, r.st.heap)
    ensures keep ==> KeepsAccessors(st.heap, r.st.heap)
    ensures |r.st.heap.objs| == |st.heap.objs|
    ensures forall x ::
      (0 <= x < |st.heap.objs| && Walk(st.heap, st.root, Parent(path)) != Ok(Ref(x)) && !Reachable(st.heap, v, x))
        ==> r.st.heap.objs[x] == st.heap.objs[x]
    ensures var x := Walk(st.heap, st.root, Parent(path));
      (x.Err? || x.value.Undefined? || x.value.Null?) ==>
        r.res == Err(TypeError) && r.st.watchers == st.watchers && r.st.log == st.log
    ensures var x := Walk(st.heap, st.root, Parent(path));
      (x.Ok? && (x.value.Num? || x.value.Str? || x.value.Bool?)) ==>
        r.res == Ok(()) && r.st.watchers == st.watchers && r.st.log == st.log &&
        SameData(st.heap, r.st.heap)
  {
    var pre := ReadPath(st, Parent(path));
    ExtendsSubsKept(st.heap, pre.st.heap, st.target);
    match pre.res
    case Err(f) => Outcome(pre.st, Err(f))
    case Ok(u) =>
      var r := Assign(pre.st, u, LastKey(path), v, keep);
      SubsKeptTrans(st.heap, pre.st.heap, r.st.heap);
      ReachSameData(st.heap, pre.st.heap, v);
      if u.Ref? then AssignConfined(pre.st, u.id, LastKey(path), v, keep); r else r
  }

  // ---------------------------------------------------------------------
  // Construction: new Watcher and new Observer
  // ---------------------------------------------------------------------

  /** `new Watcher(vm, expr, cb)`. The watcher is in the table before its
      first read, with `this.value` still undefined; `get()` sets
      `Dep.target` to it, reads the expression, and resets `Dep.target` to
      null. A read that throws skips the reset and the caching. */
  function NewWatcher(st: State, path: string): (r: Outcome<State, WatcherId>)
    requires Valid(st)
    ensures Valid(r.st)
    ensures r.st.root == st.root && r.st.log == st.log
    ensures |r.st.watchers| == |st.watchers| + 1 && r.st.watchers[..|st.watchers|] == st.watchers
    ensures SameData(st.heap, r.st.heap)
    ensures Walk(st.heap, st.root, Split(path)).Ok? ==>
      && r.res == Ok(|st.watchers|)
      && r.st.target.None?
      && r.st.watchers[|st.watchers|] == Watcher(path, Walk(st.heap, st.root, Split(path)).value)
    ensures Walk(st.heap, st.root, Split(path)).Err? ==>
      && r.res == Err(Walk(st.heap, st.root, Split(path)).fault)
      && r.st.target == Some(|st.watchers|)
      && r.st.watchers[|st.watchers|] == Watcher(path, Undefined)
    ensures forall c :: 0 <= c < |st.heap.cells| ==>
      r.st.heap.cells[c].subs
        == st.heap.cells[c].subs + Copies(Some(|st.watchers|), multiset(WalkSlots(st.heap, st.root, Split(path)))[CellSlot(c)])
  {
    var w := |st.watchers|;
    var st1 := st.(watchers := st.watchers + [Watcher(path, Undefined)], target := Some(w));
    SubsBelowMore(st.heap, w, w + 1);
    assert Valid(st1);
    var g := GetValue(st1, path);
    assert g.st.watchers[..w] == st.watchers;
    match g.res
    case Err(f) => Outcome(g.st, Err(f))
    case Ok(v) =>
      var st2 := g.st.(target := None, watchers := g.st.watchers[w := Watcher(path, v)]);
      assert st2.watchers[..w] == st.watchers;
      Outcome(st2, Ok(w))
  }

  /** `new Observer(vm.$data)`: observe the root. */
  function Install(st: State): (r: Outcome<State, ()>)
    requires Valid(st)
    ensures Valid(r.st)
    ensures r.st == st.(heap := r.st.heap)
    ensures Preserves(st.heap, r.st.heap, st.target)
    ensures r.res.Ok? ==> DeepInstalled(r.st.heap, st.root)
    ensures Confined(st.heap, r.st.heap, st.root)
  {
    var o := Observe(st.heap, st.root, |st.heap.objs|, st.target, keep := false);
    SubsBelowExtends(st.heap, o.st, st.target, |st.watchers|);
    assert SameValues(st.heap, o.st);
    Outcome(st.(heap := o.st), o.res)
  }
}

=== FILE: findings.dfy ===
/**
  `defineReactive` redefines a property that is already an accessor. The
  setter observes its new value before storing it, so assigning an object
  that is already reactive re-runs `defineReactive` on each of its
  properties: each gets a fresh `Dep` and a fresh captured value, and the
  old getter/setter pair is dropped. Two things follow:

  - a watcher subscribed to one of those properties is never notified of
    later changes to it, because the later setter notifies the new, empty
    `Dep` (`LostUpdate`);
  - when the object assigned reaches the property being assigned, the store
    goes to the dropped closure and the property keeps reading its old value
    (`WriteNotReadBack`).

  Leaving existing accessors in place (`keep` true) removes both: every
  accessor and subscription survives any write (`SetValue`'s contract), a
  write is read back whenever `observe` does not overflow
  (`SetThenGetKeeping`), and the watcher of the scenario is notified
  (`NoLostUpdate`).
 */
module Findings {
  import opened Values
  import opened Paths
  import opened Heaps
  import opened Resolver
  import opened Observer
  import opened Engine
  import opened Propagation
  import opened RoundTrip

  /** A read through an accessor still finds it after a heap change that
      keeps accessors and values. */
  lemma StepKeepsAccessor(h: Heap, h': Heap, id: ObjId, k: Key, c: CellId)
    requires Closed(h) && Closed(h') && SameValues(h, h') && KeepsAccessors(h, h') && id < |h.objs|
    requires Step(h, Ref(id), k).value.slot == Some(CellSlot(c))
    ensures Step(h', Ref(id), k).value.slot == Some(CellSlot(c))
  {
    var n, n' := h.objs[id], h'.objs[id];
    assert SameNode(h, h', n, n');
    match n
    case List(es) =>
    case Record(fs) =>
      LookupSameKeys(fs, n'.fields, k);
  }

  /** With existing accessors kept, `getValue` after `setValue` on the same
      path reads the value written whenever `observe` of it does not run out
      of stack: the hypothesis `ObserveKeeps` of `SetThenGet` is no longer
      needed. */
  lemma SetThenGetKeeping(st: State, path: string, v: Val)
    requires Valid(st) && ValIn(st.heap, v) && st.target.None? && Writable(st, path)
    requires var s := Target(st, path).value;
      s.CellSlot? && v != st.heap.cells[s.c].value ==>
        Observe(st.heap, v, |st.heap.objs|, None, keep := true).res.Ok?
    ensures GetValue(SetValue(st, path, v, keep := true).st, path).res == Ok(v)
  {
    var s := Target(st, path).value;
    if s.CellSlot? && v != st.heap.cells[s.c].value {
      var o := Observe(st.heap, v, |st.heap.objs|, None, keep := true);
      assert SameValues(st.heap, o.st);
      StepKeepsAccessor(st.heap, o.st, Owner(st, path).value, LastKey(path), s.c);
    }
    assert ObserveKeeps(st, path, v, true);
    SetThenGet(st, path, v, true);
  }

  // ---------------------------------------------------------------------
  // The scenario
  // ---------------------------------------------------------------------

  /** The data object `{a: ..., x: ...}` over the `Dep`s 0 and 1. */
  function DataNode(): Node {
    Record([Field("a", Reactive(0)), Field("x", Reactive(1))])
  }

  /** The object `{b: ...}` over the `Dep` `b`. */
  function ANode(b: CellId): Node {
    Record([Field("b", Reactive(b))])
  }

  /** Object 0 is the data, whose `a` holds object 1; `b` is the `Dep` that
      object 1's property `b` sits over. */
  predicate Shaped(h: Heap, b: CellId) {
    && h.objs == [DataNode(), ANode(b)]
    && 1 < |h.cells| && b < |h.cells|
    && h.cells[0].value == Ref(1)
  }

  lemma ShapedReads(h: Heap, b: CellId)
    requires Closed(h) && Shaped(h, b)
    ensures Walk(h, Ref(0), ["a"]) == Ok(Ref(1))
    ensures Walk(h, Ref(0), []) == Ok(Ref(0))
    ensures Step(h, Ref(1), "b").value.slot == Some(CellSlot(b))
    ensures Step(h, Ref(0), "x").value.slot == Some(CellSlot(1))
    ensures Walk(h, Ref(0), ["a", "b"]) == Ok(h.cells[b].value)
  {
    assert Step(h, Ref(0), "a") == Ok(Read(Ref(1), Some(CellSlot(0))));
    assert Step(h, Ref(1), "b") == Ok(Read(h.cells[b].value, Some(CellSlot(b))));
    assert ["a", "b"][1..] == ["b"];
  }

  lemma ShapedSlots(h: Heap, b: CellId)
    requires Closed(h) && Shaped(h, b)
    ensures WalkSlots(h, Ref(0), ["a", "b"]) == [CellSlot(0), CellSlot(b)]
    ensures Walk(h, Ref(0), ["a", "b"]) == Ok(h.cells[b].value)
  {
    ShapedReads(h, b);
    assert Step(h, Ref(0), "a") == Ok(Read(Ref(1), Some(CellSlot(0))));
    assert WalkSlots(h, Ref(1), ["b"]) == [CellSlot(b)];
  }

  lemma DemoPaths()
    ensures Split("x") == ["x"] && Parent("x") == [] && LastKey("x") == "x"
    ensures Split("a.b") == ["a", "b"] && Parent("a.b") == ["a"] && LastKey("a.b") == "b"
  {
    SplitDotFree("x");
    SplitAfterSegment("a", "b");
    SplitDotFree("b");
  }

  /** Where `x` and `a.b` lead in a state of the scenario's shape, and what
      a watcher of `a.b` reads there. */
  lemma ShapedTargets(st: State, b: CellId)
    requires Valid(st) && st.root == Ref(0) && Shaped(st.heap, b)
    ensures Target(st, "x") == Some(CellSlot(1))
    ensures Target(st, "a.b") == Some(CellSlot(b))
    ensures |st.watchers| > 0 && st.watchers[0].path == "a.b" ==>
      Fresh(st, 0) == Ok(st.heap.cells[b].value)
  {
    DemoPaths();
    ShapedReads(st.heap, b);
  }

  /** `vm.$data = {a: {b: 1}, x: null}` after `new Observer`, before anyone
      watches it. Object 0 is the data, object 1 is `a`; cells 0, 1, 2 are
      the `Dep`s of `a`, `x` and `a.b`. `defineReactive` observes a value
      before it creates the property's `Dep`, so `Install` would number
      `a.b`'s `Dep` first; the cells are renumbered here for readability. */
  function Unwatched(): (st: State)
    ensures Valid(st) && st.root == Ref(0) && Shaped(st.heap, 2)
  {
    var h := Heap([DataNode(), ANode(2)], [Cell(Ref(1), []), Cell(Null, []), Cell(Num(1), [])]);
    assert NodeIn(h, h.objs[0]) && NodeIn(h, h.objs[1]);
    State(h, Ref(0), [], None, [])
  }

  /** The same data with one watcher on `a.b` that has seen `1`; its read
      subscribed it to the `Dep`s of `a` and `a.b` (see `DemoWatched`). */
  function Demo(): (st: State)
    ensures Valid(st) && st.root == Ref(0) && Shaped(st.heap, 2)
  {
    var h := Heap([DataNode(), ANode(2)], [Cell(Ref(1), [0]), Cell(Null, []), Cell(Num(1), [0])]);
    assert NodeIn(h, h.objs[0]) && NodeIn(h, h.objs[1]);
    State(h, Ref(0), [Watcher("a.b", Num(1))], None, [])
  }

  /** A new watcher of `a.b` on data of the scenario's shape caches the
      value of `a.b` and leaves no `Dep.target` behind. */
  lemma WatchedRead(st: State, b: CellId, path: string)
    requires Valid(st) && st.root == Ref(0) && Shaped(st.heap, b) && b != 0 && Split(path) == ["a", "b"]
    ensures var r := NewWatcher(st, path);
      && r.res == Ok(|st.watchers|)
      && r.st == st.(heap := r.st.heap, watchers := st.watchers + [Watcher(path, st.heap.cells[b].value)], target := None)
  {
    ShapedReads(st.heap, b);
    var r := NewWatcher(st, path);
    AppendedOne(st.watchers, r.st.watchers, Watcher(path, st.heap.cells[b].value));
  }

  lemma AppendedOne<T>(s: seq<T>, s': seq<T>, x: T)
    requires |s'| == |s| + 1 && s'[..|s|] == s && s'[|s|] == x
    ensures s' == s + [x]
  {
  }

  /** ... and subscribes it once to the `Dep`s of `a` and `a.b`, and to no
      other. */
  lemma WatchedSubs(st: State, b: CellId, path: string)
    requires Valid(st) && st.root == Ref(0) && Shaped(st.heap, b) && b != 0 && Split(path) == ["a", "b"]
    ensures var r := NewWatcher(st, path);
      && r.st.heap.objs == st.heap.objs && |r.st.heap.cells| == |st.heap.cells|
      && forall c :: 0 <= c < |st.heap.cells| ==>
        r.st.heap.cells[c] == Cell(st.heap.cells[c].value,
          st.heap.cells[c].subs + if c == 0 || c == b then [|st.watchers|] else [])
  {
    ShapedSlots(st.heap, b);
    var r := NewWatcher(st, path);
    TwoSubscriptions(st.heap, r.st.heap, |st.watchers|, b);
  }

  /** Subscribing `w` once to each of the cells `0` and `b`. */
  lemma TwoSubscriptions(h: Heap, h': Heap, w: WatcherId, b: CellId)
    requires b != 0 && SameData(h, h')
    requires forall c :: 0 <= c < |h.cells| ==>
      h'.cells[c].subs == h.cells[c].subs + Copies(Some(w), multiset([CellSlot(0), CellSlot(b)])[CellSlot(c)])
    ensures forall c :: 0 <= c < |h.cells| ==>
      h'.cells[c] == Cell(h.cells[c].value, h.cells[c].subs + if c == 0 || c == b then [w] else [])
  {
    assert Copies(Some(w), 1) == [w];
    forall c | 0 <= c < |h.cells|
      ensures h'.cells[c] == Cell(h.cells[c].value, h.cells[c].subs + if c == 0 || c == b then [w] else [])
    {
      assert multiset([CellSlot(0), CellSlot(b)])[CellSlot(c)] == if c == 0 || c == b then 1 else 0;
    }
  }

  /** The cells after subscribing `w` once to each of the cells `0` and `b`. */
  function SubscribedTwice(cs: seq<Cell>, b: CellId, w: WatcherId): seq<Cell>
    requires 0 < b < |cs|
  {
    var cs1 := cs[0 := cs[0].(subs := cs[0].subs + [w])];
    cs1[b := cs1[b].(subs := cs1[b].subs + [w])]
  }

  lemma SubscribedTwiceIs(cs: seq<Cell>, cs': seq<Cell>, b: CellId, w: WatcherId)
    requires 0 < b < |cs| && |cs'| == |cs|
    requires forall c :: 0 <= c < |cs| ==>
      cs'[c] == Cell(cs[c].value, cs[c].subs + if c == 0 || c == b then [w] else [])
    ensures cs' == SubscribedTwice(cs, b, w)
  {
    var t := SubscribedTwice(cs, b, w);
    forall c | 0 <= c < |cs| ensures cs'[c] == t[c] {
      if c == 0 {
        assert t[c] == Cell(cs[c].value, cs[c].subs + [w]);
      } else if c == b {
        assert t[c] == Cell(cs[c].value, cs[c].subs + [w]);
      } else {
        assert t[c] == cs[c];
      }
    }
  }

  /** The state a new watcher of `path` leaves on data of the scenario's
      shape: subscribed to the `Dep`s of `a` and `a.b`, having read `a.b`. */
  function Watched(st: State, b: CellId, path: string): State
    requires Shaped(st.heap, b) && b != 0
  {
    st.(heap := st.heap.(cells := SubscribedTwice(st.heap.cells, b, |st.watchers|)),
        watchers := st.watchers + [Watcher(path, st.heap.cells[b].value)], target := None)
  }

  /** `new Watcher(vm, 'a.b', cb)` on data of the scenario's shape. */
  lemma WatchedExactly(st: State, b: CellId, path: string)
    requires Valid(st) && st.root == Ref(0) && Shaped(st.heap, b) && b != 0 && Split(path) == ["a", "b"]
    ensures NewWatcher(st, path) == Outcome(Watched(st, b, path), Ok(|st.watchers|))
  {
    WatchedRead(st, b, path);
    WatchedSubs(st, b, path);
    var r := NewWatcher(st, path);
    SubscribedTwiceIs(st.heap.cells, r.st.heap.cells, b, |st.watchers|);
  }

  /** The scenario's state is what `new Watcher(vm, 'a.b', cb)` leaves on the
      unwatched data: `Unwatched` meets the requirements of `WatchedExactly`,
      and the state it promises is `Demo`. */
  lemma DemoWatched()
    ensures Valid(Unwatched()) && Unwatched().root == Ref(0) && Shaped(Unwatched().heap, 2)
    ensures Split("a.b") == ["a", "b"]
    ensures Watched(Unwatched(), 2, "a.b") == Demo()
  {
    DemoPaths();
    var t := SubscribedTwice(Unwatched().heap.cells, 2, 0);
    assert t[0] == Cell(Ref(1), [0]) && t[1] == Cell(Null, []) && t[2] == Cell(Num(1), [0]);
    assert t == Demo().heap.cells;
  }

  /** The heap after observing `a` once more: as written, `a.b` is redefined
      over a new `Dep` 3 holding its current value. */
  function Observed(keep: bool): Heap {
    if keep then Demo().heap
    else Heap([DataNode(), ANode(3)], Demo().heap.cells + [Cell(Num(1), [])])
  }

  lemma RewrapB()
    ensures Rewrap(Demo().heap, 1, 0, Num(1)) == Observed(false)
  {
    var h := Demo().heap;
    var h1 := NewCell(h, Num(1));
    var fs := h1.objs[1].fields;
    assert fs == [Field("b", Reactive(2))];
    assert fs[0 := fs[0].(prop := Reactive(3))] == [Field("b", Reactive(3))];
    assert h1.objs[1 := ANode(3)] == Observed(false).objs;
    assert h1.cells == Observed(false).cells;
    assert SetField(h1, 1, 0, Reactive(3)) == Observed(false);
  }

  /** `defineReactive(a, 'b', 1)` on the accessor already there. */
  lemma DemoDefine(keep: bool)
    ensures DefineReactive(Demo().heap, 1, 0, 1, None, keep) == Outcome(Observed(keep), Ok(()))
  {
    var h := Demo().heap;
    assert Touch(h, Some(CellSlot(2)), None) == h;
    assert Observe(h, Num(1), 1, None, keep) == Outcome(h, Ok(()));
    RewrapB();
  }

  /** `observe` of an object with a single property is `defineReactive`
      of that property. */
  lemma ObserveSingle(h: Heap, id: ObjId, fuel: nat, t: Option<WatcherId>, keep: bool, h1: Heap)
    requires Closed(h) && id < |h.objs| && h.objs[id].Record? && |h.objs[id].fields| == 1
    requires DefineReactive(h, id, 0, fuel, t, keep) == Outcome(h1, Ok(()))
    ensures Observe(h, Ref(id), fuel + 1, t, keep) == Outcome(h1, Ok(()))
  {
    assert SameNode(h, h1, h.objs[id], h1.objs[id]);
    assert DefineAll(h1, id, 1, fuel, t, keep) == Outcome(h1, Ok(()));
  }

  lemma DemoObserve(keep: bool)
    ensures Observe(Demo().heap, Ref(1), 2, None, keep) == Outcome(Observed(keep), Ok(()))
  {
    DemoDefine(keep);
    ObserveSingle(Demo().heap, 1, 1, None, keep, Observed(keep));
  }

  /** The heap after `vm.$data.x = vm.$data.a`. */
  function AfterFirst(keep: bool): Heap {
    var h := Observed(keep);
    h.(cells := h.cells[1 := Cell(Ref(1), [])])
  }

  /** The state the setter of `x` notifies from: nobody watches `x`. */
  lemma FirstStored(keep: bool)
    ensures Observe(Demo().heap, Ref(1), |Demo().heap.objs|, None, keep).res.Ok?
    ensures Stored(Demo(), 1, Ref(1), keep) == Demo().(heap := AfterFirst(keep))
    ensures AfterFirst(keep).cells[1].subs == []
  {
    DemoObserve(keep);
    var h := Observed(keep);
    assert WriteSlot(h, CellSlot(1), Ref(1)) == AfterFirst(keep);
  }

  /** A write to a reactive property whose `Dep` has no subscriber stores
      the value and calls nothing back. */
  lemma NoSubscribers(st: State, path: string, c: CellId, v: Val, keep: bool)
    requires Valid(st) && ValIn(st.heap, v) && st.target.None?
    requires Target(st, path) == Some(CellSlot(c)) && c < |st.heap.cells|
    requires v != st.heap.cells[c].value && st.heap.cells[c].subs == []
    requires Observe(st.heap, v, |st.heap.objs|, None, keep).res.Ok?
    ensures SetValue(st, path, v, keep) == Outcome(Stored(st, c, v, keep), Ok(()))
  {
    SetValueSets(st, path, v, keep, c);
    assert Set(st, c, v, keep) == Outcome(Stored(st, c, v, keep), Ok(()));
  }

  /** `vm.$data.x = vm.$data.a`: nobody watches `x`, so nothing is called
      back; as written, `a.b` now sits over `Dep` 3. */
  lemma FirstWrite(keep: bool)
    ensures SetValue(Demo(), "x", Ref(1), keep) == Outcome(Demo().(heap := AfterFirst(keep)), Ok(()))
  {
    var s0 := Demo();
    ShapedTargets(s0, 2);
    FirstStored(keep);
    NoSubscribers(s0, "x", 1, Ref(1), keep);
  }

  /** After the first write, `a.b` names `Dep` 2 when accessors are kept,
      the new `Dep` 3 as written. */
  lemma SecondShape(keep: bool)
    ensures Valid(Demo().(heap := AfterFirst(keep)))
    ensures Shaped(AfterFirst(keep), if keep then 2 else 3)
  {
    FirstStored(keep);
  }

  /** The state the setter of `a.b` notifies from after `a.b = 2`: the
      watcher's expression reads `2`. */
  lemma SecondStored(keep: bool)
    ensures var s1 := Demo().(heap := AfterFirst(keep));
      var b := if keep then 2 else 3;
      && Valid(s1) && Shaped(s1.heap, b)
      && Observe(s1.heap, Num(2), |s1.heap.objs|, None, keep).res.Ok?
      && Stored(s1, b, Num(2), keep).heap.cells[b].subs == s1.heap.cells[b].subs
      && Fresh(Stored(s1, b, Num(2), keep), 0) == Ok(Num(2))
      && Stored(s1, b, Num(2), keep).watchers == [Watcher("a.b", Num(1))]
      && Stored(s1, b, Num(2), keep).log == []
  {
    var s1 := Demo().(heap := AfterFirst(keep));
    var b := if keep then 2 else 3;
    SecondShape(keep);
    var st2 := Stored(s1, b, Num(2), keep);
    assert Shaped(st2.heap, b);
    ShapedTargets(st2, b);
  }

  /** `vm.$data.a.b = 2` after the first write, as written: the setter
      notifies the new `Dep` 3, which nobody has subscribed to. */
  lemma SecondWriteLost()
    ensures var s1 := Demo().(heap := AfterFirst(false));
      && Valid(s1) && 3 < |s1.heap.cells| && ValIn(s1.heap, Num(2))
      && Observe(s1.heap, Num(2), |s1.heap.objs|, None, false).res.Ok?
      && SetValue(s1, "a.b", Num(2), keep := false) == Outcome(Stored(s1, 3, Num(2), false), Ok(()))
  {
    var s1 := Demo().(heap := AfterFirst(false));
    SecondStored(false);
    ShapedTargets(s1, 3);
    NoSubscribers(s1, "a.b", 3, Num(2), false);
  }

  /** As written: `vm.$data.x = vm.$data.a` re-defines `a.b` over a new
      `Dep`; the next `vm.$data.a.b = 2` changes what the watcher's
      expression denotes without calling it back. */
  lemma LostUpdate()
    ensures var s1 := SetValue(Demo(), "x", Ref(1), keep := false).st;
      var s2 := SetValue(s1, "a.b", Num(2), keep := false).st;
      && |s2.watchers| == 1
      && Fresh(s2, 0) == Ok(Num(2))
      && s2.watchers[0].cached == Num(1)
      && s2.log == []
  {
    FirstWrite(false);
    SecondWriteLost();
    SecondStored(false);
  }

  /** A setter whose `Dep` has the one subscriber `w`, written a new value
      that `observe` takes, updates `w` and nothing else: one callback when
      `w`'s expression then reads something new, none when it reads the
      cached value, and the read's error raised from the setter when it
      throws. */
  lemma OneSubscriber(st: State, c: CellId, v: Val, w: WatcherId, keep: bool)
    requires Valid(st) && c < |st.heap.cells| && ValIn(st.heap, v) && st.target.None?
    requires st.heap.cells[c].subs == [w] && w < |st.watchers|
    ensures v != st.heap.cells[c].value && Observe(st.heap, v, |st.heap.objs|, None, keep).res.Ok? ==>
      var now := Fresh(Stored(st, c, v, keep), w);
      var r := Set(st, c, v, keep);
      && (now.Err? ==> r.res == Err(now.fault) && r.st.log == st.log)
      && (now.Ok? ==>
            && r.res.Ok?
            && r.st.log == st.log +
                 (if now.value != st.watchers[w].cached then [Callback(w, now.value)] else []))
  {
    if v != st.heap.cells[c].value && Observe(st.heap, v, |st.heap.objs|, None, keep).res.Ok? {
      var st1 := Stored(st, c, v, keep);
      assert Set(st, c, v, keep) == Notify(st1, [w]);
      assert [w][..0] == [];
      assert Notify(st1, [w]) == Update(st1, w);
    }
  }

  /** `vm.$data.a.b = 2` after the first write, accessors kept. */
  lemma SecondWrite()
    ensures Valid(Demo().(heap := AfterFirst(true)))
    ensures SetValue(Demo().(heap := AfterFirst(true)), "a.b", Num(2), keep := true).st.log
      == [Callback(0, Num(2))]
  {
    var s1 := Demo().(heap := AfterFirst(true));
    SecondStored(true);
    ShapedTargets(s1, 2);
    SetValueSets(s1, "a.b", Num(2), true, 2);
    assert s1.heap.cells[2] == Cell(Num(1), [0]);
    OneSubscriber(s1, 2, Num(2), 0, true);
  }

  /** Corrected: the same two writes call the watcher back with `2`. */
  lemma NoLostUpdate()
    ensures var s1 := SetValue(Demo(), "x", Ref(1), keep := true).st;
      var s2 := SetValue(s1, "a.b", Num(2), keep := true).st;
      s2.log == [Callback(0, Num(2))]
  {
    FirstWrite(true);
    SecondWrite();
  }

  /** The heap `vm.$data.a.b = vm.$data.a` leaves, as written: `a` is
      observed again, which moves `a.b` onto the new `Dep` 3, and the value
      is then stored into the dropped `Dep` 2. */
  function SelfWritten(): Heap {
    Observed(false).(cells := Observed(false).cells[2 := Cell(Ref(1), [0])])
  }

  lemma SelfStore()
    ensures Closed(Observed(false)) && ValIn(Observed(false), Ref(1)) && SlotIn(Observed(false), CellSlot(2))
    ensures WriteSlot(Observed(false), CellSlot(2), Ref(1)) == SelfWritten()
    ensures Closed(SelfWritten()) && Shaped(SelfWritten(), 3)
  {
    DemoObserve(false);
  }

  lemma SelfWrite()
    ensures SetValue(Demo(), "a.b", Ref(1), keep := false).st.heap == SelfWritten()
  {
    var s0 := Demo();
    ShapedTargets(s0, 2);
    SetValueWrites(s0, "a.b", Ref(1), false);
    DemoObserve(false);
    SelfStore();
  }

  /** As written: `vm.$data.a.b = vm.$data.a` re-defines `a.b` before
      storing into it, so `a.b` still reads `1` afterwards. */
  lemma WriteNotReadBack()
    ensures GetValue(SetValue(Demo(), "a.b", Ref(1), keep := false).st, "a.b").res == Ok(Num(1))
  {
    DemoPaths();
    SelfWrite();
    SelfStore();
    var st1 := SetValue(Demo(), "a.b", Ref(1), keep := false).st;
    assert st1.root == Ref(0) && st1.heap == SelfWritten();
    assert SelfWritten().cells[3].value == Num(1);
    ShapedReads(SelfWritten(), 3);
  }
}

=== FILE: heap.dfy ===
/**
  The data graph after (and before) `Observer` has run, as an explicit heap.

  An object is a `Record` of fields in insertion order; an array is a `List`
  of element values. A field is either a `Plain` data property or a
  `Reactive` accessor pair installed by `defineReactive`, which closes over
  one `Cell`: the captured value and the `Dep`'s list of subscribed watchers.
 */
module Heaps {
  import opened Values

  datatype Prop = Plain(v: Val) | Reactive(cell: CellId)

  datatype Field = Field(key: Key, prop: Prop)

  datatype Node = Record(fields: seq<Field>) | List(elems: seq<Val>)

  /** The state closed over by one reactive property: its current value and
      its `Dep`'s `subs`. */
  datatype Cell = Cell(value: Val, subs: seq<WatcherId>)

  datatype Heap = Heap(objs: seq<Node>, cells: seq<Cell>)

  /** Where a read found its value. Writing a location changes the reads of
      that location and of no other. A missing key is located by its name,
      since assigning it creates the property. */
  datatype Slot =
    | CellSlot(c: CellId)
    | KeySlot(id: ObjId, key: Key)
    | ElemSlot(id: ObjId, index: nat)

  /** The value a read produced and, when it read a location, which one. */
  datatype Read = Read(value: Val, slot: Option<Slot>)

  // ---------------------------------------------------------------------
  // Well-formedness: every reference and every cell id points into the heap
  // ---------------------------------------------------------------------

  predicate ValIn(h: Heap, v: Val) {
    v.Ref? ==> v.id < |h.objs|
  }

  predicate PropIn(h: Heap, p: Prop) {
    match p
    case Plain(v) => ValIn(h, v)
    case Reactive(c) => c < |h.cells|
  }

  /** The own keys of a JavaScript object are distinct. */
  predicate DistinctKeys(fs: seq<Field>) {
    forall i, j :: 0 <= i < j < |fs| ==> fs[i].key != fs[j].key
  }

  predicate NodeIn(h: Heap, n: Node) {
    match n
    case Record(fs) => DistinctKeys(fs) && forall i :: 0 <= i < |fs| ==> PropIn(h, fs[i].prop)
    case List(es) => forall i :: 0 <= i < |es| ==> ValIn(h, es[i])
  }

  predicate Closed(h: Heap) {
    && (forall id :: 0 <= id < |h.objs| ==> NodeIn(h, h.objs[id]))
    && (forall c :: 0 <= c < |h.cells| ==> ValIn(h, h.cells[c].value))
  }

  predicate SlotIn(h: Heap, s: Slot) {
    match s
    case CellSlot(c) => c < |h.cells|
    case KeySlot(id, k) =>
      && id < |h.objs| && h.objs[id].Record?
      && var i := Lookup(h.objs[id].fields, k);
         i.None? || h.objs[id].fields[i.value].prop.Plain?
    case ElemSlot(id, i) => id < |h.objs| && h.objs[id].List? && i < |h.objs[id].elems|
  }

  predicate ReadIn(h: Heap, rd: Read) {
    ValIn(h, rd.value) && (rd.slot.Some? ==> SlotIn(h, rd.slot.value))
  }

  /** Growing the heap keeps every reference and cell id in range. */
  lemma NodeInGrows(h: Heap, h': Heap, n: Node)
    requires |h.objs| <= |h'.objs| && |h.cells| <= |h'.cells|
    requires NodeIn(h, n)
    ensures NodeIn(h', n)
  {
    match n
    case Record(fs) =>
      forall i | 0 <= i < |fs| ensures PropIn(h', fs[i].prop) {
        assert PropIn(h, fs[i].prop);
      }
    case List(es) =>
      forall i | 0 <= i < |es| ensures ValIn(h', es[i]) {
        assert ValIn(h, es[i]);
      }
  }

  // ---------------------------------------------------------------------
  // Reading a property
  // ---------------------------------------------------------------------

  /** The index of the first field named `k`. */
  function Lookup(fields: seq<Field>, k: Key): (r: Option<nat>)
    ensures r.Some? ==> r.value < |fields| && fields[r.value].key == k
    ensures r.Some? ==> forall j :: 0 <= j < r.value ==> fields[j].key != k
    ensures r.None? ==> forall j :: 0 <= j < |fields| ==> fields[j].key != k
    decreases |fields|
  {
    if |fields| == 0 then None
    else if fields[0].key == k then Some(0)
    else
      match Lookup(fields[1..], k)
      case None => None
      case Some(i) => Some(i + 1)
  }

  predicate SameKeys(fs: seq<Field>, gs: seq<Field>) {
    |fs| == |gs| && forall i :: 0 <= i < |fs| ==> fs[i].key == gs[i].key
  }

  lemma LookupSameKeys(fs: seq<Field>, gs: seq<Field>, k: Key)
    requires SameKeys(fs, gs)
    ensures Lookup(fs, k) == Lookup(gs, k)
  {
    var a, b := Lookup(fs, k), Lookup(gs, k);
    if a.Some? {
      assert gs[a.value].key == k;
    }
    if b.Some? {
      assert fs[b.value].key == k;
    }
  }

  /** The value a property holds: a data property's own value, or the value
      captured by a reactive property's closure. */
  function PropValue(h: Heap, p: Prop): Val {
    match p
    case Plain(v) => v
    case Reactive(c) => if c < |h.cells| then h.cells[c].value else Undefined
  }

  /** A property of a string primitive: its `length` and its characters,
      counted in Unicode code points rather than UTF-16 code units. */
  function StringProp(s: string, k: Key): Val {
    if k == "length" then Num(|s|)
    else
      match ArrayIndex(k)
      case Some(i) => if i < |s| then Str([s[i]]) else Undefined
      case None => Undefined
  }

  /** `data[k]` for one key, read without side effects: reading through
      `undefined` or `null` throws, a missing key reads as `undefined`. */
  function Step(h: Heap, u: Val, k: Key): (r: Result<Read>)
    requires Closed(h) && ValIn(h, u)
    ensures r.Err? <==> u.Undefined? || u.Null?
    ensures r.Err? ==> r.fault == TypeError
    ensures r.Ok? ==> ReadIn(h, r.value)
  {
    match u
    case Undefined => Err(TypeError)
    case Null => Err(TypeError)
    case Num(_) => Ok(Read(Undefined, None))
    case Bool(_) => Ok(Read(Undefined, None))
    case Str(s) => Ok(Read(StringProp(s, k), None))
    case Ref(id) =>
      assert NodeIn(h, h.objs[id]);
      match h.objs[id]
      case List(es) =>
        if k == "length" then Ok(Read(Num(|es|), None))
        else (
          match ArrayIndex(k)
          case Some(i) =>
            if i < |es| then Ok(Read(es[i], Some(ElemSlot(id, i)))) else Ok(Read(Undefined, None))
          case None => Ok(Read(Undefined, None)))
      case Record(fs) =>
        match Lookup(fs, k)
        case None => Ok(Read(Undefined, Some(KeySlot(id, k))))
        case Some(i) =>
          assert PropIn(h, fs[i].prop);
          match fs[i].prop
          case Plain(v) => Ok(Read(v, Some(KeySlot(id, k))))
          case Reactive(c) => Ok(Read(h.cells[c].value, Some(CellSlot(c))))
  }

  /** The value a path denotes: the `reduce` of `resolveFn.getValue`, without
      its side effects. This is the reference the stateful reads are
      compared against. */
  function Walk(h: Heap, u: Val, segs: seq<Key>): (r: Result<Val>)
    requires Closed(h) && ValIn(h, u)
    ensures r.Ok? ==> ValIn(h, r.value)
    ensures r.Err? ==> r.fault == TypeError
    decreases |segs|
  {
    if |segs| == 0 then Ok(u)
    else
      match Step(h, u, segs[0])
      case Err(f) => Err(f)
      case Ok(rd) => Walk(h, rd.value, segs[1..])
  }

  /** The locations a path read touches, in order, up to the failing step. */
  function WalkSlots(h: Heap, u: Val, segs: seq<Key>): (r: seq<Slot>)
    requires Closed(h) && ValIn(h, u)
    ensures forall i :: 0 <= i < |r| ==> SlotIn(h, r[i])
    decreases |segs|
  {
    if |segs| == 0 then []
    else
      match Step(h, u, segs[0])
      case Err(_) => []
      case Ok(rd) =>
        SlotList(rd.slot) + WalkSlots(h, rd.value, segs[1..])
  }

  function SlotList(s: Option<Slot>): seq<Slot> {
    if s.Some? then [s.value] else []
  }

  // ---------------------------------------------------------------------
  // Heap updates
  // ---------------------------------------------------------------------

  /** `Dep.addSub`: append the watcher at the end of the cell's `subs`. */
  function AddSub(h: Heap, c: CellId, w: WatcherId): (r: Heap)
    requires c < |h.cells|
    ensures r.objs == h.objs && |r.cells| == |h.cells|
    ensures r.cells[c].value == h.cells[c].value
    ensures |r.cells[c].subs| == |h.cells[c].subs| + 1
    ensures r.cells[c].subs[..|h.cells[c].subs|] == h.cells[c].subs
    ensures r.cells[c].subs[|h.cells[c].subs|] == w
    ensures forall d :: 0 <= d < |h.cells| && d != c ==> r.cells[d] == h.cells[d]
  {
    h.(cells := h.cells[c := h.cells[c].(subs := h.cells[c].subs + [w])])
  }

  /** The getter's `Dep.target && dep.addSub(Dep.target)` for a read at `s`. */
  function Touch(h: Heap, s: Option<Slot>, t: Option<WatcherId>): (r: Heap)
    requires s.Some? ==> SlotIn(h, s.value)
  {
    if s.Some? && s.value.CellSlot? && t.Some? then AddSub(h, s.value.c, t.value) else h
  }

  /** The captured value of a reactive property changes; its `Dep` does not. */
  function StoreCell(h: Heap, c: CellId, v: Val): (r: Heap)
    requires c < |h.cells|
  {
    h.(cells := h.cells[c := h.cells[c].(value := v)])
  }

  /** A fresh `Dep` and value cell, at index `|h.cells|`. */
  function NewCell(h: Heap, v: Val): (r: Heap)
    requires Closed(h) && ValIn(h, v)
    ensures Closed(r)
    ensures r.objs == h.objs && r.cells == h.cells + [Cell(v, [])]
  {
    var r := h.(cells := h.cells + [Cell(v, [])]);
    forall id | 0 <= id < |r.objs| ensures NodeIn(r, r.objs[id]) {
      NodeInGrows(h, r, h.objs[id]);
    }
    r
  }

  function SetField(h: Heap, id: ObjId, i: nat, p: Prop): (r: Heap)
    requires id < |h.objs| && h.objs[id].Record? && i < |h.objs[id].fields|
  {
    var fs := h.objs[id].fields;
    h.(objs := h.objs[id := Record(fs[i := fs[i].(prop := p)])])
  }

  function AddField(h: Heap, id: ObjId, k: Key, v: Val): (r: Heap)
    requires id < |h.objs| && h.objs[id].Record?
  {
    h.(objs := h.objs[id := Record(h.objs[id].fields + [Field(k, Plain(v))])])
  }

  function SetElem(h: Heap, id: ObjId, i: nat, v: Val): (r: Heap)
    requires id < |h.objs| && h.objs[id].List? && i < |h.objs[id].elems|
  {
    h.(objs := h.objs[id := List(h.objs[id].elems[i := v])])
  }

  /** Replacing one node by a well-formed one keeps the heap closed. */
  lemma ReplaceNodeClosed(h: Heap, id: ObjId, n: Node)
    requires Closed(h) && id < |h.objs| && NodeIn(h, n)
    ensures Closed(h.(objs := h.objs[id := n]))
  {
    var r := h.(objs := h.objs[id := n]);
    forall d | 0 <= d < |r.objs| ensures NodeIn(r, r.objs[d]) {
      if d == id {
        NodeInGrows(h, r, n);
      } else {
        NodeInGrows(h, r, h.objs[d]);
      }
    }
  }

  /** Changing one property of an object keeps its keys. */
  lemma FieldUpdateIn(h: Heap, fs: seq<Field>, i: nat, p: Prop)
    requires NodeIn(h, Record(fs)) && i < |fs| && PropIn(h, p)
    ensures NodeIn(h, Record(fs[i := fs[i].(prop := p)]))
  {
    var gs := fs[i := fs[i].(prop := p)];
    assert forall j :: 0 <= j < |gs| ==> gs[j].key == fs[j].key;
  }

  /** Creating a property under a key the object lacks keeps keys distinct. */
  lemma FieldAddIn(h: Heap, fs: seq<Field>, k: Key, v: Val)
    requires NodeIn(h, Record(fs)) && Lookup(fs, k).None? && ValIn(h, v)
    ensures NodeIn(h, Record(fs + [Field(k, Plain(v))]))
  {
  }

  /** Plain assignment to a location: the store of a reactive setter, a data
      property replaced or created, an array element replaced. */
  function WriteSlot(h: Heap, s: Slot, v: Val): (r: Heap)
    requires Closed(h) && SlotIn(h, s) && ValIn(h, v)
    ensures Closed(r)
    ensures !s.CellSlot? ==> r.cells == h.cells
    ensures s.CellSlot? ==> r.objs == h.objs
    ensures |r.cells| == |h.cells| && |r.objs| == |h.objs|
    ensures forall x :: 0 <= x < |h.objs| && (s.CellSlot? || s.id != x) ==> r.objs[x] == h.objs[x]
  {
    match s
    case CellSlot(c) =>
      var r := StoreCell(h, c, v);
      forall id | 0 <= id < |r.objs| ensures NodeIn(r, r.objs[id]) {
        NodeInGrows(h, r, r.objs[id]);
      }
      r
    case KeySlot(id, k) =>
      var fs := h.objs[id].fields;
      assert NodeIn(h, h.objs[id]);
      (match Lookup(fs, k)
       case Some(i) =>
         FieldUpdateIn(h, fs, i, Plain(v));
         ReplaceNodeClosed(h, id, Record(fs[i := fs[i].(prop := Plain(v))]));
         SetField(h, id, i, Plain(v))
       case None =>
         FieldAddIn(h, fs, k, v);
         ReplaceNodeClosed(h, id, Record(fs + [Field(k, Plain(v))]));
         AddField(h, id, k, v))
    case ElemSlot(id, i) =>
      var es := h.objs[id].elems;
      assert NodeIn(h, h.objs[id]);
      assert NodeIn(h, List(es[i := v]));
      ReplaceNodeClosed(h, id, List(es[i := v]));
      SetElem(h, id, i, v)
  }

  // ---------------------------------------------------------------------
  // Relations between heaps
  // ---------------------------------------------------------------------

  /** `h'` holds the same data as `h`: the same objects with the same keys in
      the same order, and every property reads the same value, whether it is
      a data property or an accessor. */
  ghost predicate SameValues(h: Heap, h': Heap) {
    |h'.objs| == |h.objs| &&
    forall id :: 0 <= id < |h.objs| ==> SameNode(h, h', h.objs[id], h'.objs[id])
  }

  ghost predicate SameNode(h: Heap, h': Heap, n: Node, n': Node) {
    match n
    case List(es) => n' == List(es)
    case Record(fs) =>
      n'.Record? && SameKeys(fs, n'.fields) &&
      forall i :: 0 <= i < |fs| ==> PropValue(h', n'.fields[i].prop) == PropValue(h, fs[i].prop)
  }

  /** Subscriptions only grow, and only by the active watcher `t`; with no
      active watcher they do not grow at all. */
  ghost predicate SubsGrow(s: seq<WatcherId>, s': seq<WatcherId>, t: Option<WatcherId>) {
    && |s| <= |s'| && s'[..|s|] == s
    && (t.None? ==> |s'| == |s|)
    && forall j :: |s| <= j < |s'| ==> t == Some(s'[j])
  }

  /** No cell is lost or changes value, and every subscription added since
      `h` is of the active watcher `t`. */
  ghost predicate Extends(h: Heap, h': Heap, t: Option<WatcherId>) {
    && |h.cells| <= |h'.cells|
    && (forall c :: 0 <= c < |h.cells| ==>
          h'.cells[c].value == h.cells[c].value && SubsGrow(h.cells[c].subs, h'.cells[c].subs, t))
    && (forall c :: |h.cells| <= c < |h'.cells| ==> SubsGrow([], h'.cells[c].subs, t))
  }

  /** Every property of `h'` is the one of `h`, or an accessor over a cell
      created after `h`. */
  ghost predicate KeptOrFresh(h: Heap, h': Heap) {
    |h'.objs| == |h.objs| &&
    forall id :: 0 <= id < |h.objs| ==> NodeKeptOrFresh(h, h.objs[id], h'.objs[id])
  }

  ghost predicate NodeKeptOrFresh(h: Heap, n: Node, n': Node) {
    n.Record? && n'.Record? && |n'.fields| == |n.fields| ==>
      forall i :: 0 <= i < |n.fields| ==> PropKeptOrFresh(h, n.fields[i].prop, n'.fields[i].prop)
  }

  ghost predicate PropKeptOrFresh(h: Heap, p: Prop, p': Prop) {
    p' == p || (p'.Reactive? && p'.cell >= |h.cells|)
  }

  /** How `observe` may change the heap: values, keys and arrays are kept,
      cells are only added, and properties are only re-pointed at new cells. */
  ghost predicate Preserves(h: Heap, h': Heap, t: Option<WatcherId>) {
    SameValues(h, h') && Extends(h, h', t) && KeptOrFresh(h, h')
  }

  lemma SubsGrowTrans(s1: seq<WatcherId>, s2: seq<WatcherId>, s3: seq<WatcherId>, t: Option<WatcherId>)
    requires SubsGrow(s1, s2, t) && SubsGrow(s2, s3, t)
    ensures SubsGrow(s1, s3, t)
  {
    assert s3[..|s1|] == s3[..|s2|][..|s1|];
    forall j | |s1| <= j < |s3| ensures t == Some(s3[j]) {
      if j < |s2| {
        assert s3[j] == s3[..|s2|][j];
      }
    }
  }

  lemma ExtendsRefl(h: Heap, t: Option<WatcherId>)
    ensures Extends(h, h, t)
  {
    forall c | 0 <= c < |h.cells| ensures SubsGrow(h.cells[c].subs, h.cells[c].subs, t) {
      assert h.cells[c].subs[..|h.cells[c].subs|] == h.cells[c].subs;
    }
  }

  lemma ExtendsTrans(h1: Heap, h2: Heap, h3: Heap, t: Option<WatcherId>)
    requires Extends(h1, h2, t) && Extends(h2, h3, t)
    ensures Extends(h1, h3, t)
  {
    forall c | 0 <= c < |h1.cells|
      ensures h3.cells[c].value == h1.cells[c].value && SubsGrow(h1.cells[c].subs, h3.cells[c].subs, t)
    {
      SubsGrowTrans(h1.cells[c].subs, h2.cells[c].subs, h3.cells[c].subs, t);
    }
    forall c | |h1.cells| <= c < |h3.cells| ensures SubsGrow([], h3.cells[c].subs, t) {
      if c < |h2.cells| {
        SubsGrowTrans([], h2.cells[c].subs, h3.cells[c].subs, t);
      }
    }
  }

  lemma SameValuesRefl(h: Heap)
    ensures SameValues(h, h)
  {
    forall id | 0 <= id < |h.objs| ensures SameNode(h, h, h.objs[id], h.objs[id]) {
    }
  }

  lemma SameValuesTrans(h1: Heap, h2: Heap, h3: Heap)
    requires SameValues(h1, h2) && SameValues(h2, h3)
    ensures SameValues(h1, h3)
  {
    forall id | 0 <= id < |h1.objs| ensures SameNode(h1, h3, h1.objs[id], h3.objs[id]) {
      assert SameNode(h1, h2, h1.objs[id], h2.objs[id]);
      assert SameNode(h2, h3, h2.objs[id], h3.objs[id]);
    }
  }

  lemma KeptOrFreshTrans(h1: Heap, h2: Heap, h3: Heap)
    requires KeptOrFresh(h1, h2) && KeptOrFresh(h2, h3) && |h1.cells| <= |h2.cells|
    requires SameValues(h1, h2) && SameValues(h2, h3)
    ensures KeptOrFresh(h1, h3)
  {
    forall id | 0 <= id < |h1.objs| ensures NodeKeptOrFresh(h1, h1.objs[id], h3.objs[id]) {
      var n1, n2, n3 := h1.objs[id], h2.objs[id], h3.objs[id];
      assert SameNode(h1, h2, n1, n2);
      assert NodeKeptOrFresh(h1, n1, n2);
      assert NodeKeptOrFresh(h2, n2, n3);
      if n1.Record? && n3.Record? && |n3.fields| == |n1.fields| {
        forall i | 0 <= i < |n1.fields|
          ensures PropKeptOrFresh(h1, n1.fields[i].prop, n3.fields[i].prop)
        {
          assert PropKeptOrFresh(h1, n1.fields[i].prop, n2.fields[i].prop);
          assert PropKeptOrFresh(h2, n2.fields[i].prop, n3.fields[i].prop);
        }
      }
    }
  }

  lemma PreservesRefl(h: Heap, t: Option<WatcherId>)
    ensures Preserves(h, h, t)
  {
    SameValuesRefl(h);
    ExtendsRefl(h, t);
  }

  lemma PreservesTrans(h1: Heap, h2: Heap, h3: Heap, t: Option<WatcherId>)
    requires Preserves(h1, h2, t) && Preserves(h2, h3, t)
    ensures Preserves(h1, h3, t)
  {
    SameValuesTrans(h1, h2, h3);
    ExtendsTrans(h1, h2, h3, t);
    KeptOrFreshTrans(h1, h2, h3);
  }
}

=== FILE: observer.dfy ===
/**
  `Observer.observe` and `Observer.defineReactive`: the walk that turns every
  own property of every object reachable from a value into a reactive
  accessor over a fresh `Dep`.

  Fields are visited by position; the keys of a JavaScript object are
  distinct, so field `i` is the property `Object.keys(data)[i]`. The
  recursion is bounded by `fuel`: running out of it is the stack overflow
  that `observe` runs into on a cyclic graph, which it does not detect.
 */
module Observer {
  import opened Values
  import opened Heaps
  import opened Resolver

  /** Every own property of the object `v` refers to is an accessor. */
  ghost predicate Installed(h: Heap, v: Val) {
    v.Ref? && v.id < |h.objs| && h.objs[v.id].Record? ==>
      forall i :: 0 <= i < |h.objs[v.id].fields| ==> h.objs[v.id].fields[i].prop.Reactive?
  }

  /** Every object reachable from `v` along a path of property reads has
      all its own properties as accessors: what `observe` leaves behind. */
  ghost predicate DeepInstalled(h: Heap, v: Val) {
    && Closed(h) && ValIn(h, v)
    && forall segs :: Walk(h, v, segs).Ok? ==> Installed(h, Walk(h, v, segs).value)
  }

  lemma InstalledStable(h: Heap, h': Heap, t: Option<WatcherId>, v: Val)
    requires Preserves(h, h', t) && Installed(h, v)
    ensures Installed(h', v)
  {
    if v.Ref? && v.id < |h.objs| && h.objs[v.id].Record? {
      var n, n' := h.objs[v.id], h'.objs[v.id];
      assert SameNode(h, h', n, n');
      assert NodeKeptOrFresh(h, n, n');
      forall i | 0 <= i < |n'.fields| ensures n'.fields[i].prop.Reactive? {
        assert PropKeptOrFresh(h, n.fields[i].prop, n'.fields[i].prop);
      }
    }
  }

  /** Reads from a primitive only ever produce primitives. */
  lemma {:induction false} PrimitiveWalk(h: Heap, v: Val, segs: seq<Key>)
    requires Closed(h) && !v.Ref?
    ensures Walk(h, v, segs).Ok? ==> !Walk(h, v, segs).value.Ref?
    decreases |segs|
  {
    if |segs| > 0 && Step(h, v, segs[0]).Ok? {
      PrimitiveWalk(h, Step(h, v, segs[0]).value.value, segs[1..]);
    }
  }

  lemma DeepPrimitive(h: Heap, v: Val)
    requires Closed(h) && !v.Ref?
    ensures DeepInstalled(h, v)
  {
    forall segs | Walk(h, v, segs).Ok? ensures Installed(h, Walk(h, v, segs).value) {
      PrimitiveWalk(h, v, segs);
    }
  }

  /** Heap changes that keep values and only add accessors keep a value
      deeply installed. */
  lemma DeepStable(h: Heap, h': Heap, t: Option<WatcherId>, v: Val)
    requires Closed(h') && Preserves(h, h', t) && DeepInstalled(h, v)
    ensures DeepInstalled(h', v)
  {
    forall segs | Walk(h', v, segs).Ok? ensures Installed(h', Walk(h', v, segs).value) {
      WalkSameValues(h, h', v, segs);
      InstalledStable(h, h', t, Walk(h, v, segs).value);
    }
  }

  /** The properties of the object `id` from position `from` on are
      accessors over deeply installed values. */
  ghost predicate PropsDeep(h: Heap, id: ObjId, from: nat) {
    && id < |h.objs| && h.objs[id].Record? && from <= |h.objs[id].fields|
    && forall j :: from <= j < |h.objs[id].fields| ==>
      && h.objs[id].fields[j].prop.Reactive?
      && DeepInstalled(h, PropValue(h, h.objs[id].fields[j].prop))
  }

  /** An object whose properties are all accessors over deeply installed
      values is deeply installed. */
  lemma DeepRecord(h: Heap, id: ObjId)
    requires Closed(h) && PropsDeep(h, id, 0)
    ensures DeepInstalled(h, Ref(id))
  {
    var fs := h.objs[id].fields;
    forall segs | Walk(h, Ref(id), segs).Ok? ensures Installed(h, Walk(h, Ref(id), segs).value) {
      if |segs| > 0 {
        var rd := Step(h, Ref(id), segs[0]).value;
        assert Walk(h, Ref(id), segs) == Walk(h, rd.value, segs[1..]);
        match Lookup(fs, segs[0])
        case None =>
          PrimitiveWalk(h, rd.value, segs[1..]);
        case Some(i) =>
          assert rd.value == PropValue(h, fs[i].prop);
          assert DeepInstalled(h, PropValue(h, fs[i].prop));
      }
    }
  }

  /** An array whose elements are all deeply installed is deeply installed. */
  lemma DeepList(h: Heap, id: ObjId)
    requires Closed(h) && id < |h.objs| && h.objs[id].List?
    requires forall j :: 0 <= j < |h.objs[id].elems| ==> DeepInstalled(h, h.objs[id].elems[j])
    ensures DeepInstalled(h, Ref(id))
  {
    var es := h.objs[id].elems;
    forall segs | Walk(h, Ref(id), segs).Ok? ensures Installed(h, Walk(h, Ref(id), segs).value) {
      if |segs| > 0 {
        var rd := Step(h, Ref(id), segs[0]).value;
        assert Walk(h, Ref(id), segs) == Walk(h, rd.value, segs[1..]);
        var a := ArrayIndex(segs[0]);
        if segs[0] != "length" && a.Some? && a.value < |es| {
          assert rd.value == es[a.value];
          assert DeepInstalled(h, es[a.value]);
        } else {
          PrimitiveWalk(h, rd.value, segs[1..]);
        }
      }
    }
  }

  /** The object `x` is reachable from `v` along some path of property reads
      and array indices. */
  ghost predicate Reachable(h: Heap, v: Val, x: ObjId) {
    Closed(h) && ValIn(h, v) && exists segs :: Walk(h, v, segs) == Ok(Ref(x))
  }

  /** The object `x` is reachable from the object `id` along a non-empty
      path: it lies below `id`. */
  ghost predicate Below(h: Heap, id: ObjId, x: ObjId) {
    Closed(h) && id < |h.objs| && exists segs :: |segs| > 0 && Walk(h, Ref(id), segs) == Ok(Ref(x))
  }

  /** Every object of `h` that `v` does not reach is the same in `h'`. */
  ghost predicate Confined(h: Heap, h': Heap, v: Val) {
    && |h'.objs| == |h.objs|
    && forall x :: 0 <= x < |h.objs| && !Reachable(h, v, x) ==> h'.objs[x] == h.objs[x]
  }

  /** Every object of `h` other than `id` that `v` does not reach is the same
      in `h'`: what an assignment of `v` to a property of `id` may change. */
  ghost predicate ConfinedBut(h: Heap, h': Heap, id: ObjId, v: Val) {
    && |h'.objs| == |h.objs|
    && forall x :: 0 <= x < |h.objs| && x != id && !Reachable(h, v, x) ==> h'.objs[x] == h.objs[x]
  }

  lemma ConfinedWiden(h: Heap, h': Heap, id: ObjId, v: Val)
    requires Confined(h, h', v)
    ensures ConfinedBut(h, h', id, v)
  {
  }

  lemma ReachSelf(h: Heap, id: ObjId)
    requires Closed(h) && id < |h.objs|
    ensures Reachable(h, Ref(id), id)
  {
    assert Walk(h, Ref(id), []) == Ok(Ref(id));
  }

  /** The keys of an object are distinct, so its property `i` is the one its
      key names. */
  lemma LookupOwnKey(h: Heap, fs: seq<Field>, i: nat)
    requires NodeIn(h, Record(fs)) && i < |fs|
    ensures Lookup(fs, fs[i].key) == Some(i)
  {
  }

  /** What a property's value reaches, its object reaches. */
  lemma ReachField(h: Heap, id: ObjId, i: nat, x: ObjId)
    requires Closed(h) && id < |h.objs| && h.objs[id].Record? && i < |h.objs[id].fields|
    requires Reachable(h, PropValue(h, h.objs[id].fields[i].prop), x)
    ensures Reachable(h, Ref(id), x) && Below(h, id, x)
  {
    var fs := h.objs[id].fields;
    var u := PropValue(h, fs[i].prop);
    var segs :| Walk(h, u, segs) == Ok(Ref(x));
    assert NodeIn(h, h.objs[id]) && PropIn(h, fs[i].prop);
    LookupOwnKey(h, fs, i);
    var p := [fs[i].key] + segs;
    assert p[0] == fs[i].key && p[1..] == segs;
    assert Walk(h, Ref(id), p) == Walk(h, u, segs);
  }

  /** What an array element reaches, its array reaches. */
  lemma ReachElem(h: Heap, id: ObjId, j: nat, x: ObjId)
    requires Closed(h) && id < |h.objs| && h.objs[id].List? && j < |h.objs[id].elems|
    requires Reachable(h, h.objs[id].elems[j], x)
    ensures Reachable(h, Ref(id), x) && Below(h, id, x)
  {
    var u := h.objs[id].elems[j];
    var segs :| Walk(h, u, segs) == Ok(Ref(x));
    var k := IndexKey(j);
    assert k != "length" by {
      assert IsDigit(k[0]) && !IsDigit("length"[0]);
    }
    var p := [k] + segs;
    assert p[0] == k && p[1..] == segs;
    assert Walk(h, Ref(id), p) == Walk(h, u, segs);
  }

  /** Heaps with the same values have the same reachable objects. */
  lemma ReachSame(h: Heap, h': Heap, v: Val, x: ObjId)
    requires Closed(h) && Closed(h') && SameValues(h, h') && ValIn(h, v)
    ensures Reachable(h', v, x) <==> Reachable(h, v, x)
  {
    if Reachable(h, v, x) {
      var segs :| Walk(h, v, segs) == Ok(Ref(x));
      WalkSameValues(h, h', v, segs);
    }
    if Reachable(h', v, x) {
      var segs :| Walk(h', v, segs) == Ok(Ref(x));
      WalkSameValues(h, h', v, segs);
    }
  }

  /** Reads through getters change no reachability. */
  lemma ReachSameData(h: Heap, h': Heap, v: Val)
    requires Closed(h) && Closed(h') && SameData(h, h') && ValIn(h, v)
    ensures forall x :: Reachable(h', v, x) <==> Reachable(h, v, x)
  {
    SameDataSameValues(h, h');
    forall x ensures Reachable(h', v, x) <==> Reachable(h, v, x) {
      ReachSame(h, h', v, x);
    }
  }

  lemma ConfinedTrans(h: Heap, h1: Heap, h2: Heap, v: Val)
    requires Closed(h) && Closed(h1) && SameValues(h, h1) && ValIn(h, v)
    requires Confined(h, h1, v) && Confined(h1, h2, v)
    ensures Confined(h, h2, v)
  {
    forall x | 0 <= x < |h.objs| && !Reachable(h, v, x) ensures h2.objs[x] == h.objs[x] {
      ReachSame(h, h1, v, x);
    }
  }

  /** Observing the elements of an array touches only what the array reaches. */
  lemma ElemsConfined(h: Heap, h': Heap, id: ObjId)
    requires Closed(h) && id < |h.objs| && h.objs[id].List? && |h'.objs| == |h.objs|
    requires var es := h.objs[id].elems;
      forall x :: 0 <= x < |h.objs| && (forall k :: 0 <= k < |es| ==> !Reachable(h, es[k], x)) ==>
        h'.objs[x] == h.objs[x]
    ensures Confined(h, h', Ref(id))
  {
    var es := h.objs[id].elems;
    forall x | 0 <= x < |h.objs| && !Reachable(h, Ref(id), x) ensures h'.objs[x] == h.objs[x] {
      forall k | 0 <= k < |es| ensures !Reachable(h, es[k], x) {
        if Reachable(h, es[k], x) {
          ReachElem(h, id, k, x);
        }
      }
    }
  }

  /** One more element observed keeps the pass within what the remaining
      elements reach. */
  lemma ElemsConfinedStep(h: Heap, h1: Heap, h2: Heap, es: seq<Val>, j: nat)
    requires Closed(h) && Closed(h1) && SameValues(h, h1) && j < |es|
    requires forall k :: 0 <= k < |es| ==> ValIn(h, es[k])
    requires Confined(h, h1, es[j]) && |h2.objs| == |h1.objs|
    requires forall x :: 0 <= x < |h1.objs| && (forall k :: j + 1 <= k < |es| ==> !Reachable(h1, es[k], x)) ==>
      h2.objs[x] == h1.objs[x]
    ensures forall x :: 0 <= x < |h.objs| && (forall k :: j <= k < |es| ==> !Reachable(h, es[k], x)) ==>
      h2.objs[x] == h.objs[x]
  {
    forall x | 0 <= x < |h.objs| && (forall k :: j <= k < |es| ==> !Reachable(h, es[k], x))
      ensures h2.objs[x] == h.objs[x]
    {
      assert !Reachable(h, es[j], x);
      forall k | j + 1 <= k < |es| ensures !Reachable(h1, es[k], x) {
        ReachSame(h, h1, es[k], x);
        assert !Reachable(h, es[k], x);
      }
    }
  }

  /** Observing a property's value touches only what its object reaches. */
  lemma FieldConfined(h: Heap, h0: Heap, h1: Heap, id: ObjId, i: nat)
    requires Closed(h) && Closed(h0) && SameValues(h, h0) && h0.objs == h.objs
    requires id < |h.objs| && h.objs[id].Record? && i < |h.objs[id].fields|
    requires Confined(h0, h1, PropValue(h, h.objs[id].fields[i].prop))
    ensures Confined(h, h1, Ref(id))
  {
    var fs := h.objs[id].fields;
    var u := PropValue(h, fs[i].prop);
    assert NodeIn(h, h.objs[id]) && PropIn(h, fs[i].prop) && ValIn(h, u);
    forall x | 0 <= x < |h.objs| && !Reachable(h, Ref(id), x) ensures h1.objs[x] == h.objs[x] {
      ReachSame(h, h0, u, x);
      if Reachable(h, u, x) {
        ReachField(h, id, i, x);
      }
    }
  }

  /** Re-pointing a property of the object `id` stays within what `id` reaches. */
  lemma RewrapConfined(h: Heap, h1: Heap, h2: Heap, id: ObjId)
    requires Closed(h) && id < |h.objs| && Confined(h, h1, Ref(id)) && |h2.objs| == |h1.objs|
    requires forall x :: 0 <= x < |h1.objs| && x != id ==> h2.objs[x] == h1.objs[x]
    ensures Confined(h, h2, Ref(id))
  {
    ReachSelf(h, id);
  }

  lemma PreservesTouch(h: Heap, c: CellId, t: Option<WatcherId>)
    requires Closed(h) && c < |h.cells|
    ensures Closed(Touch(h, Some(CellSlot(c)), t))
    ensures Preserves(h, Touch(h, Some(CellSlot(c)), t), t)
  {
    var h' := Touch(h, Some(CellSlot(c)), t);
    TouchSameData(h, Some(CellSlot(c)), t);
    SameDataSameValues(h, h');
    forall d | 0 <= d < |h.cells| ensures SubsGrow(h.cells[d].subs, h'.cells[d].subs, t) {
      var s := h.cells[d].subs;
      if d == c && t.Some? {
        assert h'.cells[d].subs == s + [t.value];
        assert (s + [t.value])[..|s|] == s;
      } else {
        assert h'.cells[d].subs == s;
        assert s[..|s|] == s;
      }
    }
  }

  lemma PreservesGetter(h: Heap, p: Prop, t: Option<WatcherId>)
    requires Closed(h) && PropIn(h, p)
    ensures Closed(if p.Reactive? then Touch(h, Some(CellSlot(p.cell)), t) else h)
    ensures Preserves(h, if p.Reactive? then Touch(h, Some(CellSlot(p.cell)), t) else h, t)
  {
    if p.Reactive? {
      PreservesTouch(h, p.cell, t);
    } else {
      PreservesRefl(h, t);
    }
  }

  /** Every property of `h` that is an accessor is still the same accessor in
      `h'`: its `Dep` and captured value are the ones it had. */
  ghost predicate KeepsAccessors(h: Heap, h': Heap) {
    forall id, i ::
      (0 <= id < |h.objs| && h.objs[id].Record? && 0 <= i < |h.objs[id].fields| &&
       h.objs[id].fields[i].prop.Reactive?) ==>
        && id < |h'.objs| && h'.objs[id].Record? && i < |h'.objs[id].fields|
        && h'.objs[id].fields[i].prop == h.objs[id].fields[i].prop
  }

  lemma KeepsAccessorsTrans(h1: Heap, h2: Heap, h3: Heap)
    requires KeepsAccessors(h1, h2) && KeepsAccessors(h2, h3)
    ensures KeepsAccessors(h1, h3)
  {
  }

  lemma KeepsAccessorsRewrap(h: Heap, o: Heap, id: ObjId, i: nat, value: Val)
    requires KeepsAccessors(h, o) && Closed(o)
    requires id < |h.objs| && h.objs[id].Record? && i < |h.objs[id].fields| && h.objs[id].fields[i].prop.Plain?
    requires id < |o.objs| && o.objs[id].Record? && i < |o.objs[id].fields| && ValIn(o, value)
    ensures KeepsAccessors(h, Rewrap(o, id, i, value))
  {
  }

  /** The last step of `defineReactive`: a fresh `Dep` and value cell holding
      the property's current value, and the accessor over them. */
  function Rewrap(h: Heap, id: ObjId, i: nat, value: Val): (r: Heap)
    requires Closed(h) && id < |h.objs| && h.objs[id].Record? && i < |h.objs[id].fields|
    requires ValIn(h, value)
    ensures Closed(r)
    ensures |r.objs| == |h.objs| && forall x :: 0 <= x < |h.objs| && x != id ==> r.objs[x] == h.objs[x]
  {
    var h1 := NewCell(h, value);
    var fs := h1.objs[id].fields;
    assert NodeIn(h1, h1.objs[id]);
    FieldUpdateIn(h1, fs, i, Reactive(|h.cells|));
    ReplaceNodeClosed(h1, id, Record(fs[i := fs[i].(prop := Reactive(|h.cells|))]));
    SetField(h1, id, i, Reactive(|h.cells|))
  }

  lemma PreservesRewrap(h: Heap, id: ObjId, i: nat, value: Val, t: Option<WatcherId>)
    requires Closed(h) && id < |h.objs| && h.objs[id].Record? && i < |h.objs[id].fields|
    requires ValIn(h, value) && value == PropValue(h, h.objs[id].fields[i].prop)
    ensures Preserves(h, Rewrap(h, id, i, value), t)
    ensures Rewrap(h, id, i, value).objs[id].fields[i].prop.Reactive?
    ensures PropValue(Rewrap(h, id, i, value), Rewrap(h, id, i, value).objs[id].fields[i].prop) == value
  {
    var r := Rewrap(h, id, i, value);
    forall d | 0 <= d < |h.objs| ensures SameNode(h, r, h.objs[d], r.objs[d]) {
      if d == id {
        var fs, gs := h.objs[id].fields, r.objs[id].fields;
        forall j | 0 <= j < |fs| ensures PropValue(r, gs[j].prop) == PropValue(h, fs[j].prop) {
        }
      }
    }
    forall d | 0 <= d < |h.cells| ensures SubsGrow(h.cells[d].subs, r.cells[d].subs, t) {
      assert h.cells[d].subs[..|h.cells[d].subs|] == h.cells[d].subs;
    }
    assert r.cells[|h.cells|].subs == [];
  }

  /** `observe(v)`. Scalars, `null` and `undefined` are left alone; an array
      is not made reactive itself but each element is observed; for an
      object, each own property is made reactive, in key order. */
  function Observe(h: Heap, v: Val, fuel: nat, t: Option<WatcherId>, keep: bool): (r: Outcome<Heap, ()>)
    requires Closed(h) && ValIn(h, v)
    ensures Closed(r.st) && Preserves(h, r.st, t)
    ensures !v.Ref? ==> r == Outcome(h, Ok(()))
    ensures r.res.Err? ==> r.res.fault == StackOverflow
    ensures r.res.Ok? ==> DeepInstalled(r.st, v)
    ensures keep ==> KeepsAccessors(h, r.st)
    ensures Confined(h, r.st, v)
    decreases fuel, 0, 0
  {
    PreservesRefl(h, t);
    match v
    case Ref(id) =>
      if fuel == 0 then Outcome(h, Err(StackOverflow))
      else (
        match h.objs[id]
        case List(es) =>
          assert NodeIn(h, h.objs[id]);
          var r := ObserveElems(h, es, 0, fuel - 1, t, keep);
          assert SameNode(h, r.st, h.objs[id], r.st.objs[id]);
          ElemsConfined(h, r.st, id);
          if r.res.Ok? then DeepList(r.st, id); r else r
        case Record(fs) =>
          var r := DefineAll(h, id, 0, fuel - 1, t, keep);
          assert SameNode(h, r.st, h.objs[id], r.st.objs[id]);
          if r.res.Ok? then DeepRecord(r.st, id); r else r)
    case _ => DeepPrimitive(h, v); Outcome(h, Ok(()))
  }

  /** `es.forEach(v => this.observe(v))`, from element `j` on. */
  function ObserveElems(h: Heap, es: seq<Val>, j: nat, fuel: nat, t: Option<WatcherId>, keep: bool): (r: Outcome<Heap, ()>)
    requires Closed(h) && j <= |es| && forall k :: 0 <= k < |es| ==> ValIn(h, es[k])
    ensures Closed(r.st) && Preserves(h, r.st, t)
    ensures r.res.Err? ==> r.res.fault == StackOverflow
    ensures r.res.Ok? ==> forall k :: j <= k < |es| ==> DeepInstalled(r.st, es[k])
    ensures keep ==> KeepsAccessors(h, r.st)
    ensures forall x :: 0 <= x < |h.objs| && (forall k :: j <= k < |es| ==> !Reachable(h, es[k], x)) ==>
      r.st.objs[x] == h.objs[x]
    decreases fuel, 1, |es| - j
  {
    PreservesRefl(h, t);
    if j == |es| then Outcome(h, Ok(()))
    else
      var r1 := Observe(h, es[j], fuel, t, keep);
      if r1.res.Err? then r1
      else
        assert |r1.st.objs| == |h.objs| by {
          assert SameValues(h, r1.st);
        }
        forall k | 0 <= k < |es| ensures ValIn(r1.st, es[k]) {
          assert ValIn(h, es[k]);
        }
        var r2 := ObserveElems(r1.st, es, j + 1, fuel, t, keep);
        PreservesTrans(h, r1.st, r2.st, t);
        DeepStable(r1.st, r2.st, t, es[j]);
        ElemsConfinedStep(h, r1.st, r2.st, es, j);
        r2
  }

  /** `Object.keys(data).forEach(k => this.defineReactive(data, k, data[k]))`,
      from field `i` on. */
  function DefineAll(h: Heap, id: ObjId, i: nat, fuel: nat, t: Option<WatcherId>, keep: bool): (r: Outcome<Heap, ()>)
    requires Closed(h) && id < |h.objs| && h.objs[id].Record? && i <= |h.objs[id].fields|
    ensures Closed(r.st) && Preserves(h, r.st, t)
    ensures r.res.Err? ==> r.res.fault == StackOverflow
    ensures r.res.Ok? ==> PropsDeep(r.st, id, i)
    ensures keep ==> KeepsAccessors(h, r.st)
    ensures Confined(h, r.st, Ref(id))
    decreases fuel, 1, |h.objs[id].fields| - i
  {
    PreservesRefl(h, t);
    if i == |h.objs[id].fields| then Outcome(h, Ok(()))
    else
      var r1 := DefineReactive(h, id, i, fuel, t, keep);
      if r1.res.Err? then r1
      else
        assert SameNode(h, r1.st, h.objs[id], r1.st.objs[id]);
        assert |r1.st.objs[id].fields| == |h.objs[id].fields|;
        var r2 := DefineAll(r1.st, id, i + 1, fuel, t, keep);
        PreservesTrans(h, r1.st, r2.st, t);
        ConfinedTrans(h, r1.st, r2.st, Ref(id));
        assert keep ==> KeepsAccessors(h, r2.st) by {
          if keep {
            KeepsAccessorsTrans(h, r1.st, r2.st);
          }
        }
        if r2.res.Ok? then DefineAllStep(r1.st, r2.st, id, i, t); r2 else r2
  }

  lemma DefineAllStep(h1: Heap, h2: Heap, id: ObjId, i: nat, t: Option<WatcherId>)
    requires Closed(h2) && Preserves(h1, h2, t) && id < |h1.objs| && h1.objs[id].Record? && i < |h1.objs[id].fields|
    requires h1.objs[id].fields[i].prop.Reactive?
    requires DeepInstalled(h1, PropValue(h1, h1.objs[id].fields[i].prop))
    requires PropsDeep(h2, id, i + 1)
    ensures PropsDeep(h2, id, i)
  {
    var n1, n2 := h1.objs[id], h2.objs[id];
    assert SameNode(h1, h2, n1, n2);
    assert NodeKeptOrFresh(h1, n1, n2);
    assert PropKeptOrFresh(h1, n1.fields[i].prop, n2.fields[i].prop);
    DeepStable(h1, h2, t, PropValue(h1, n1.fields[i].prop));
  }

  /** `defineReactive(data, k, data[k])` for the field at position `i`: read
      the value (through the getter if the property is already an accessor),
      observe it, then install a getter/setter pair over a fresh `Dep`.
      With `keep` false this is the function as written, which redefines an
      accessor that is already there; with `keep` true an existing accessor
      is left in place (see Findings in the README). */
  function DefineReactive(h: Heap, id: ObjId, i: nat, fuel: nat, t: Option<WatcherId>, keep: bool): (r: Outcome<Heap, ()>)
    requires Closed(h) && id < |h.objs| && h.objs[id].Record? && i < |h.objs[id].fields|
    ensures Closed(r.st) && Preserves(h, r.st, t)
    ensures r.res.Err? ==> r.res.fault == StackOverflow
    ensures r.res.Ok? ==>
      && r.st.objs[id].fields[i].prop.Reactive?
      && DeepInstalled(r.st, PropValue(r.st, r.st.objs[id].fields[i].prop))
    ensures keep ==> KeepsAccessors(h, r.st)
    ensures Confined(h, r.st, Ref(id))
    decreases fuel, 0, 1
  {
    var p := h.objs[id].fields[i].prop;
    assert NodeIn(h, h.objs[id]) && PropIn(h, p);
    assert KeepsAccessors(h, if p.Reactive? then Touch(h, Some(CellSlot(p.cell)), t) else h);
    var value := PropValue(h, p);
    var h0 := if p.Reactive? then Touch(h, Some(CellSlot(p.cell)), t) else h;
    PreservesGetter(h, p, t);
    assert SameNode(h, h0, h.objs[id], h0.objs[id]);
    var o := Observe(h0, value, fuel, t, keep);
    PreservesTrans(h, h0, o.st, t);
    FieldConfined(h, h0, o.st, id, i);
    assert keep ==> KeepsAccessors(h, o.st) by {
      if keep {
        KeepsAccessorsTrans(h, h0, o.st);
      }
    }
    if o.res.Err? then o
    else
      assert SameNode(h, o.st, h.objs[id], o.st.objs[id]);
      if keep && p.Reactive? then
        assert o.st.objs[id].fields[i].prop == p;
        o
      else
        var h2 := Rewrap(o.st, id, i, value);
        PreservesRewrap(o.st, id, i, value, t);
        PreservesTrans(h, o.st, h2, t);
        DeepStable(o.st, h2, t, value);
        RewrapConfined(h, o.st, h2, id);
        assert keep ==> KeepsAccessors(h, h2) by {
          if keep {
            KeepsAccessorsRewrap(h, o.st, id, i, value);
          }
        }
        Outcome(h2, Ok(()))
  }
}

=== FILE: paths.dfy ===
/**
  Binding expressions are dot-separated property paths. The resolver splits
  them with `String.prototype.split('.')`, which never fails and always
  yields at least one segment: `""` splits to `[""]`, `"a..b"` to
  `["a", "", "b"]`.
 */
module Paths {
  import opened Values

  /** True when no segment contains a dot. */
  predicate DotFree(segs: seq<Key>) {
    forall i :: 0 <= i < |segs| ==> '.' !in segs[i]
  }

  /** The inverse of `Split`: segments glued back together with dots. */
  function Join(segs: seq<Key>): string
    requires |segs| > 0
    decreases |segs|
  {
    if |segs| == 1 then segs[0] else segs[0] + "." + Join(segs[1..])
  }

  /** `path.split('.')`. */
  function Split(path: string): (segs: seq<Key>)
    ensures |segs| > 0
    ensures DotFree(segs)
    ensures Join(segs) == path
    decreases |path|
  {
    if |path| == 0 then
      [""]
    else
      var rest := Split(path[1..]);
      if path[0] == '.' then
        [""] + rest
      else
        [[path[0]] + rest[0]] + rest[1..]
  }

  /** All segments of `path` but the last: the ones `setValue` reads. */
  function Parent(path: string): seq<Key> {
    var segs := Split(path);
    segs[..|segs| - 1]
  }

  /** The last segment of `path`: the one `setValue` assigns. */
  function LastKey(path: string): Key {
    var segs := Split(path);
    segs[|segs| - 1]
  }

  lemma SplitParent(path: string)
    ensures Split(path) == Parent(path) + [LastKey(path)]
  {
  }

  lemma {:induction false} SplitDotFree(x: string)
    requires '.' !in x
    ensures Split(x) == [x]
    decreases |x|
  {
    if |x| > 0 {
      assert '.' !in x[1..];
      SplitDotFree(x[1..]);
      assert [x[0]] + x[1..] == x;
    }
  }

  lemma {:induction false} SplitAfterSegment(x: string, t: string)
    requires '.' !in x
    ensures Split(x + "." + t) == [x] + Split(t)
    decreases |x|
  {
    var s := x + "." + t;
    if |x| == 0 {
      assert s[1..] == t;
    } else {
      assert s[1..] == x[1..] + "." + t;
      assert '.' !in x[1..];
      SplitAfterSegment(x[1..], t);
      assert [x[0]] + x[1..] == x;
    }
  }

  /** Splitting a joined path gives back its segments, as long as no segment
      holds a dot itself. With `Split`'s own contract this makes `Split` and
      `Join` inverse bijections between strings and dot-free segment lists. */
  lemma {:induction false} JoinSplit(segs: seq<Key>)
    requires |segs| > 0 && DotFree(segs)
    ensures Split(Join(segs)) == segs
    decreases |segs|
  {
    if |segs| == 1 {
      SplitDotFree(segs[0]);
    } else {
      assert '.' !in segs[0];
      assert DotFree(segs[1..]);
      JoinSplit(segs[1..]);
      SplitAfterSegment(segs[0], Join(segs[1..]));
      assert segs == [segs[0]] + segs[1..];
    }
  }
}

=== FILE: propagation.dfy ===
/**
  What dependency tracking and change propagation add up to: a new watcher
  is subscribed to exactly the reactive properties its expression reads, and
  a `notify` calls back each distinct subscriber whose expression now
  denotes a different value, once, in order of first subscription.
 */
module Propagation {
  import opened Values
  import opened Paths
  import opened Heaps
  import opened Resolver
  import opened Observer
  import opened Engine

  // ---------------------------------------------------------------------
  // Dependency tracking
  // ---------------------------------------------------------------------

  lemma {:induction false} CopiesHas(t: Option<WatcherId>, n: nat, w: WatcherId)
    ensures w in Copies(t, n) <==> t == Some(w) && n > 0
    decreases n
  {
    if t.Some? && n > 0 {
      CopiesHas(t, n - 1, w);
    }
  }

  /** The watcher built by `new Watcher(vm, path, cb)` ends up among the
      subscribers of a reactive property exactly when reading `path` goes
      through that property's getter. */
  lemma NewWatcherTracks(st: State, path: string, c: CellId)
    requires Valid(st) && c < |st.heap.cells|
    ensures |st.watchers| in NewWatcher(st, path).st.heap.cells[c].subs
        <==> CellSlot(c) in WalkSlots(st.heap, st.root, Split(path))
  {
    var w := |st.watchers|;
    var n := multiset(WalkSlots(st.heap, st.root, Split(path)))[CellSlot(c)];
    var s := st.heap.cells[c].subs;
    CopiesHas(Some(w), n, w);
    assert forall j :: 0 <= j < |s| ==> s[j] < w;
  }

  // ---------------------------------------------------------------------
  // Change propagation
  // ---------------------------------------------------------------------

  /** The callbacks a notification of the subscriber list `ws` should make,
      defined without reference to the order of updates: each distinct
      watcher of `ws`, at its first occurrence, whose expression now
      denotes something other than the value it last saw. */
  function Expected(st: State, ws: seq<WatcherId>): seq<Callback>
    requires Valid(st) && AllBelow(ws, |st.watchers|)
    decreases |ws|
  {
    if |ws| == 0 then []
    else
      var w := ws[|ws| - 1];
      var now := Fresh(st, w);
      Expected(st, ws[..|ws| - 1]) +
        (if w !in ws[..|ws| - 1] && now.Ok? && now.value != st.watchers[w].cached
         then [Callback(w, now.value)] else [])
  }

  /** Every expected callback is for a subscriber whose value changed, made
      with the new value, and no watcher is called back twice. */
  lemma {:induction false} ExpectedCallbacks(st: State, ws: seq<WatcherId>)
    requires Valid(st) && AllBelow(ws, |st.watchers|)
    ensures forall j :: 0 <= j < |Expected(st, ws)| ==>
      var cb := Expected(st, ws)[j];
      && cb.watcher in ws
      && Fresh(st, cb.watcher) == Ok(cb.value)
      && cb.value != st.watchers[cb.watcher].cached
    ensures forall i, j :: 0 <= i < j < |Expected(st, ws)| ==>
      Expected(st, ws)[i].watcher != Expected(st, ws)[j].watcher
    decreases |ws|
  {
    if |ws| > 0 {
      var pre := ws[..|ws| - 1];
      ExpectedCallbacks(st, pre);
      var e := Expected(st, ws);
      var ep := Expected(st, pre);
      assert e[..|ep|] == ep;
      forall j | 0 <= j < |e|
        ensures e[j].watcher in ws
        ensures Fresh(st, e[j].watcher) == Ok(e[j].value)
        ensures e[j].value != st.watchers[e[j].watcher].cached
      {
        if j < |ep| {
          assert e[j] == ep[j];
          assert ep[j].watcher in pre;
        }
      }
      forall i, j | 0 <= i < j < |e| ensures e[i].watcher != e[j].watcher {
        if j >= |ep| {
          assert e[i] == ep[i] && ep[i].watcher in pre;
          assert e[j].watcher == ws[|ws| - 1] && ws[|ws| - 1] !in pre;
        } else {
          assert e[i] == ep[i] && e[j] == ep[j];
        }
      }
    }
  }

  /** Every subscriber the expected callbacks leave out either occurs
      earlier in the list or sees no change. */
  lemma {:induction false} ExpectedComplete(st: State, ws: seq<WatcherId>, w: WatcherId)
    requires Valid(st) && AllBelow(ws, |st.watchers|) && w in ws
    requires Fresh(st, w).Ok? && Fresh(st, w).value != st.watchers[w].cached
    ensures Callback(w, Fresh(st, w).value) in Expected(st, ws)
    decreases |ws|
  {
    var pre := ws[..|ws| - 1];
    if w in pre {
      ExpectedComplete(st, pre, w);
      assert Expected(st, ws)[..|Expected(st, pre)|] == Expected(st, pre);
    } else {
      assert w == ws[|ws| - 1];
      var e := Expected(st, ws);
      assert e[|e| - 1] == Callback(w, Fresh(st, w).value);
    }
  }

  /** What the pass has done before the `update` of `w`: the expected
      callbacks of `pre` made, the watchers of `pre` refreshed. */
  ghost predicate PassedOver(st: State, q: State, pre: seq<WatcherId>)
    requires Valid(st) && AllBelow(pre, |st.watchers|)
  {
    && Valid(q) && q.root == st.root && SameData(st.heap, q.heap) && |q.watchers| == |st.watchers|
    && (forall j :: 0 <= j < |pre| ==> Fresh(st, pre[j]).Ok?)
    && q.log == st.log + Expected(st, pre)
    && (forall x :: 0 <= x < |st.watchers| ==>
          q.watchers[x] == (if x in pre then Watcher(st.watchers[x].path, Fresh(st, x).value) else st.watchers[x]))
  }

  /** The `update` of `w` reads in `q` what it would have read in `st`. */
  lemma FreshSame(st: State, q: State, w: WatcherId)
    requires Valid(st) && Valid(q) && w < |st.watchers| && |q.watchers| == |st.watchers|
    requires q.root == st.root && SameData(st.heap, q.heap) && q.watchers[w].path == st.watchers[w].path
    ensures Fresh(q, w) == Fresh(st, w)
  {
    WalkSameData(st.heap, q.heap, st.root, Split(st.watchers[w].path));
  }

  /** Appending one watcher to a subscriber list appends at most its own
      callback to the expected ones. */
  lemma ExpectedSnoc(st: State, pre: seq<WatcherId>, w: WatcherId)
    requires Valid(st) && AllBelow(pre, |st.watchers|) && w < |st.watchers| && Fresh(st, w).Ok?
    ensures AllBelow(pre + [w], |st.watchers|)
    ensures Expected(st, pre + [w]) == Expected(st, pre) +
      (if w !in pre && Fresh(st, w).value != st.watchers[w].cached then [Callback(w, Fresh(st, w).value)] else [])
  {
    var ws := pre + [w];
    assert ws[..|ws| - 1] == pre && ws[|ws| - 1] == w;
  }

  /** One `update` after the others of a notification pass. */
  lemma NotifyStep(st: State, q: State, pre: seq<WatcherId>, w: WatcherId)
    requires Valid(st) && AllBelow(pre, |st.watchers|) && w < |st.watchers|
    requires PassedOver(st, q, pre) && Fresh(st, w).Ok?
    ensures AllBelow(pre + [w], |st.watchers|)
    ensures Update(q, w).res.Ok?
    ensures PassedOver(st, Update(q, w).st, pre + [w])
  {
    var ws := pre + [w];
    assert ws[..|ws| - 1] == pre && ws[|ws| - 1] == w;
    FreshSame(st, q, w);
    var r := Update(q, w);
    SameDataTrans(st.heap, q.heap, r.st.heap);
    ExpectedSnoc(st, pre, w);
    assert (st.log + Expected(st, pre)) + (if w !in pre && Fresh(st, w).value != st.watchers[w].cached
         then [Callback(w, Fresh(st, w).value)] else [])
      == st.log + Expected(st, ws);
    forall x | 0 <= x < |st.watchers|
      ensures r.st.watchers[x]
        == (if x in ws then Watcher(st.watchers[x].path, Fresh(st, x).value) else st.watchers[x])
    {
      assert x in ws <==> x in pre || x == w;
    }
    assert forall j :: 0 <= j < |ws| ==> Fresh(st, ws[j]).Ok? by {
      forall j | 0 <= j < |ws| ensures Fresh(st, ws[j]).Ok? {
        if j < |pre| { assert ws[j] == pre[j]; }
      }
    }
  }

  /** `Dep.notify` over the subscriber list `ws`, when no expression read
      throws: the callbacks made are exactly the expected ones, every
      watcher of `ws` caches its new value, every other watcher is left
      alone. With a stale `Dep.target` the reads may subscribe it again,
      but what they read is the same. */
  lemma {:induction false} NotifyCallbacks(st: State, ws: seq<WatcherId>)
    requires Valid(st) && AllBelow(ws, |st.watchers|)
    requires forall j :: 0 <= j < |ws| ==> Fresh(st, ws[j]).Ok?
    ensures Notify(st, ws).res.Ok?
    ensures Notify(st, ws).st.log == st.log + Expected(st, ws)
    ensures forall w :: 0 <= w < |st.watchers| ==>
      Notify(st, ws).st.watchers[w]
        == (if w in ws then Watcher(st.watchers[w].path, Fresh(st, w).value) else st.watchers[w])
    decreases |ws|
  {
    if |ws| == 0 {
      assert st.log + [] == st.log;
    } else {
      var pre, w := ws[..|ws| - 1], ws[|ws| - 1];
      assert ws == pre + [w];
      assert forall j :: 0 <= j < |pre| ==> pre[j] == ws[j];
      NotifyCallbacks(st, pre);
      var p := Notify(st, pre);
      NotifyStep(st, p.st, pre, w);
    }
  }

  /** The reactive setter, on a real change, with no watcher active and no
      expression read throwing: it calls back exactly the distinct
      subscribers of the property whose expressions now denote something
      new, in order of subscription, with their new values. */
  lemma SetterCallbacks(st: State, c: CellId, v: Val, keep: bool)
    requires Valid(st) && c < |st.heap.cells| && ValIn(st.heap, v) && st.target.None?
    requires v != st.heap.cells[c].value
    requires Observe(st.heap, v, |st.heap.objs|, None, keep).res.Ok?
    requires var s := st.heap.cells[c].subs;
      forall j :: 0 <= j < |s| ==> Fresh(Stored(st, c, v, keep), s[j]).Ok?
    ensures Set(st, c, v, keep).res.Ok?
    ensures Set(st, c, v, keep).st.log == st.log + Expected(Stored(st, c, v, keep), st.heap.cells[c].subs)
  {
    var st1 := Stored(st, c, v, keep);
    var s := st.heap.cells[c].subs;
    assert AllBelow(s, |st.watchers|);
    NotifyCallbacks(st1, s);
    assert Set(st, c, v, keep) == Notify(st1, st1.heap.cells[c].subs);
  }
}

=== FILE: resolver.dfy ===
/**
  `resolveFn.getValue` as a heap operation: the path walk of `Heaps.Walk`,
  where every reactive getter on the way runs `Dep.target && dep.addSub(...)`.
  Also the facts about path reads that the rest of the model leans on: a
  read depends only on the data, and a write to one location changes no read
  that does not touch it.
 */
module Resolver {
  import opened Values
  import opened Heaps

  /** Same objects and same cell values; only `subs` may differ. */
  ghost predicate SameData(h: Heap, h': Heap) {
    h'.objs == h.objs && |h'.cells| == |h.cells| &&
    forall c :: 0 <= c < |h.cells| ==> h'.cells[c].value == h.cells[c].value
  }

  /** `n` copies of the active watcher, or nothing when there is none. */
  function Copies(t: Option<WatcherId>, n: nat): seq<WatcherId>
    decreases n
  {
    if t.None? || n == 0 then [] else [t.value] + Copies(t, n - 1)
  }

  lemma SameDataClosed(h: Heap, h': Heap)
    requires Closed(h) && SameData(h, h')
    ensures Closed(h')
  {
    forall id | 0 <= id < |h'.objs| ensures NodeIn(h', h'.objs[id]) {
      NodeInGrows(h, h', h.objs[id]);
    }
  }

  lemma StepSameData(h: Heap, h': Heap, u: Val, k: Key)
    requires Closed(h) && SameData(h, h') && ValIn(h, u)
    ensures Closed(h')
    ensures Step(h', u, k) == Step(h, u, k)
  {
    SameDataClosed(h, h');
  }

  lemma {:induction false} WalkSameData(h: Heap, h': Heap, u: Val, segs: seq<Key>)
    requires Closed(h) && SameData(h, h') && ValIn(h, u)
    ensures Closed(h')
    ensures Walk(h', u, segs) == Walk(h, u, segs)
    ensures WalkSlots(h', u, segs) == WalkSlots(h, u, segs)
    decreases |segs|
  {
    SameDataClosed(h, h');
    if |segs| > 0 {
      StepSameData(h, h', u, segs[0]);
      match Step(h, u, segs[0])
      case Err(_) =>
      case Ok(rd) => WalkSameData(h, h', rd.value, segs[1..]);
    }
  }

  lemma TouchSameData(h: Heap, s: Option<Slot>, t: Option<WatcherId>)
    requires Closed(h) && (s.Some? ==> SlotIn(h, s.value))
    ensures SameData(h, Touch(h, s, t))
    ensures Closed(Touch(h, s, t))
  {
    SameDataClosed(h, Touch(h, s, t));
  }

  /** The `reduce` of `resolveFn.getValue` with its side effects: it returns
      exactly the value the side-effect-free `Walk` denotes (failing with a
      TypeError exactly where `Walk` does), changes no data, and with no
      active watcher changes nothing at all. */
  function Resolve(h: Heap, u: Val, segs: seq<Key>, t: Option<WatcherId>): (r: Outcome<Heap, Val>)
    requires Closed(h) && ValIn(h, u)
    ensures Closed(r.st) && SameData(h, r.st)
    ensures r.res == Walk(h, u, segs)
    ensures t.None? ==> r.st == h
    decreases |segs|
  {
    if |segs| == 0 then Outcome(h, Ok(u))
    else
      match Step(h, u, segs[0])
      case Err(f) => Outcome(h, Err(f))
      case Ok(rd) =>
        var h1 := Touch(h, rd.slot, t);
        TouchSameData(h, rd.slot, t);
        WalkSameData(h, h1, rd.value, segs[1..]);
        var r := Resolve(h1, rd.value, segs[1..], t);
        r
  }

  lemma CopiesAdd(t: Option<WatcherId>, m: nat, n: nat)
    ensures Copies(t, m + n) == Copies(t, m) + Copies(t, n)
    decreases m
  {
    if t.Some? && m > 0 {
      CopiesAdd(t, m - 1, n);
    }
  }

  lemma TouchSubs(h: Heap, s: Option<Slot>, t: Option<WatcherId>, c: CellId)
    requires Closed(h) && (s.Some? ==> SlotIn(h, s.value)) && c < |h.cells|
    ensures Touch(h, s, t).cells[c].subs == h.cells[c].subs + Copies(t, multiset(SlotList(s))[CellSlot(c)])
  {
    if t.None? {
      assert h.cells[c].subs + [] == h.cells[c].subs;
    } else if s == Some(CellSlot(c)) {
      assert multiset(SlotList(s))[CellSlot(c)] == 1;
      assert Copies(t, 1) == [t.value];
    } else {
      assert multiset(SlotList(s))[CellSlot(c)] == 0;
      assert h.cells[c].subs + [] == h.cells[c].subs;
    }
  }

  lemma ResolveUnfold(h: Heap, u: Val, segs: seq<Key>, t: Option<WatcherId>)
    requires Closed(h) && ValIn(h, u) && |segs| > 0 && Step(h, u, segs[0]).Ok?
    ensures var rd := Step(h, u, segs[0]).value;
      && Closed(Touch(h, rd.slot, t))
      && ValIn(Touch(h, rd.slot, t), rd.value)
      && Resolve(h, u, segs, t) == Resolve(Touch(h, rd.slot, t), rd.value, segs[1..], t)
      && WalkSlots(h, u, segs) == SlotList(rd.slot) + WalkSlots(Touch(h, rd.slot, t), rd.value, segs[1..])
  {
    var rd := Step(h, u, segs[0]).value;
    TouchSameData(h, rd.slot, t);
    WalkSameData(h, Touch(h, rd.slot, t), rd.value, segs[1..]);
  }

  lemma SubsCompose(s0: seq<WatcherId>, s1: seq<WatcherId>, s2: seq<WatcherId>,
                    t: Option<WatcherId>, m: nat, n: nat)
    requires s1 == s0 + Copies(t, m) && s2 == s1 + Copies(t, n)
    ensures s2 == s0 + Copies(t, m + n)
  {
    CopiesAdd(t, m, n);
    assert (s0 + Copies(t, m)) + Copies(t, n) == s0 + (Copies(t, m) + Copies(t, n));
  }

  /** Reading a path with watcher `w` active appends `w` to the `Dep` of a
      property once for every time the walk reads that property, and to no
      other `Dep`; with no active watcher no `Dep` changes. */
  lemma {:induction false} ResolveSubscribes(h: Heap, u: Val, segs: seq<Key>, t: Option<WatcherId>, c: CellId)
    requires Closed(h) && ValIn(h, u) && c < |h.cells|
    ensures Resolve(h, u, segs, t).st.cells[c].subs
         == h.cells[c].subs + Copies(t, multiset(WalkSlots(h, u, segs))[CellSlot(c)])
    decreases |segs|
  {
    if |segs| == 0 || Step(h, u, segs[0]).Err? {
      assert h.cells[c].subs + [] == h.cells[c].subs;
    } else {
      var rd := Step(h, u, segs[0]).value;
      var h1 := Touch(h, rd.slot, t);
      ResolveUnfold(h, u, segs, t);
      TouchSameData(h, rd.slot, t);
      ResolveSubscribes(h1, rd.value, segs[1..], t, c);
      TouchSubs(h, rd.slot, t, c);
      var rest := WalkSlots(h1, rd.value, segs[1..]);
      var m := multiset(SlotList(rd.slot))[CellSlot(c)];
      var n := multiset(rest)[CellSlot(c)];
      assert multiset(WalkSlots(h, u, segs))[CellSlot(c)] == m + n by {
        assert multiset(SlotList(rd.slot) + rest) == multiset(SlotList(rd.slot)) + multiset(rest);
      }
      var r1 := Resolve(h1, rd.value, segs[1..], t);
      assert Resolve(h, u, segs, t).st == r1.st;
      SubsCompose(h.cells[c].subs, h1.cells[c].subs, r1.st.cells[c].subs, t, m, n);
    }
  }

  // ---------------------------------------------------------------------
  // Reads depend only on the data
  // ---------------------------------------------------------------------

  lemma StepSameValues(h: Heap, h': Heap, u: Val, k: Key)
    requires Closed(h) && Closed(h') && SameValues(h, h') && ValIn(h, u)
    ensures ValIn(h', u)
    ensures Step(h', u, k).Ok? == Step(h, u, k).Ok?
    ensures Step(h, u, k).Ok? ==> Step(h', u, k).value.value == Step(h, u, k).value.value
  {
    if u.Ref? {
      var n, n' := h.objs[u.id], h'.objs[u.id];
      assert SameNode(h, h', n, n');
      if n.Record? {
        LookupSameKeys(n.fields, n'.fields, k);
      }
    }
  }

  /** Two heaps that hold the same data give every path the same value. */
  lemma {:induction false} WalkSameValues(h: Heap, h': Heap, u: Val, segs: seq<Key>)
    requires Closed(h) && Closed(h') && SameValues(h, h') && ValIn(h, u)
    ensures ValIn(h', u)
    ensures Walk(h', u, segs) == Walk(h, u, segs)
    decreases |segs|
  {
    StepSameValues(h, h', u, if |segs| > 0 then segs[0] else "");
    if |segs| > 0 {
      match Step(h, u, segs[0])
      case Err(_) =>
      case Ok(rd) => WalkSameValues(h, h', rd.value, segs[1..]);
    }
  }

  lemma SameDataSameValues(h: Heap, h': Heap)
    requires SameData(h, h')
    ensures SameValues(h, h')
  {
    forall id | 0 <= id < |h.objs| ensures SameNode(h, h', h.objs[id], h'.objs[id]) {
    }
  }

  // ---------------------------------------------------------------------
  // A write changes only the reads of the location written
  // ---------------------------------------------------------------------

  lemma LookupAppend(fs: seq<Field>, f: Field, k: Key)
    requires k != f.key || Lookup(fs, k).Some?
    ensures Lookup(fs + [f], k) == Lookup(fs, k)
  {
    var r := Lookup(fs + [f], k);
    var q := Lookup(fs, k);
    if q.Some? {
      assert (fs + [f])[q.value].key == k;
    }
    if r.Some? && r.value < |fs| {
      assert fs[r.value].key == k;
    }
  }

  lemma LookupAppendNew(fs: seq<Field>, f: Field)
    requires Lookup(fs, f.key).None?
    ensures Lookup(fs + [f], f.key) == Some(|fs|)
  {
    assert (fs + [f])[|fs|].key == f.key;
    assert forall j :: 0 <= j < |fs| ==> (fs + [f])[j] == fs[j];
  }

  lemma StepFrame(h: Heap, s: Slot, v: Val, u: Val, k: Key)
    requires Closed(h) && SlotIn(h, s) && ValIn(h, v) && ValIn(h, u)
    requires Step(h, u, k).Ok? ==> Step(h, u, k).value.slot != Some(s)
    ensures ValIn(WriteSlot(h, s, v), u)
    ensures Step(WriteSlot(h, s, v), u, k).Ok? == Step(h, u, k).Ok?
    ensures Step(h, u, k).Ok? ==> Step(WriteSlot(h, s, v), u, k).value.value == Step(h, u, k).value.value
  {
    var h' := WriteSlot(h, s, v);
    if u.Ref? && u.id < |h.objs| {
      var n, n' := h.objs[u.id], h'.objs[u.id];
      match s
      case CellSlot(c) =>
      case ElemSlot(id, i) =>
        if id == u.id {
          StepFrameElem(h, id, i, v, k);
        }
      case KeySlot(id, key) =>
        if id == u.id {
          StepFrameKey(h, id, key, v, k);
        }
    }
  }

  /** A write to one element of an array leaves the reads of its other keys. */
  lemma StepFrameElem(h: Heap, id: ObjId, i: nat, v: Val, k: Key)
    requires Closed(h) && SlotIn(h, ElemSlot(id, i)) && ValIn(h, v)
    requires Step(h, Ref(id), k).value.slot != Some(ElemSlot(id, i))
    ensures Step(WriteSlot(h, ElemSlot(id, i), v), Ref(id), k).value.value == Step(h, Ref(id), k).value.value
  {
    if ArrayIndex(k).Some? && k != "length" {
      assert ArrayIndex(k).value != i;
    }
  }

  /** A write to one key of an object leaves the reads of its other keys. */
  lemma StepFrameKey(h: Heap, id: ObjId, key: Key, v: Val, k: Key)
    requires Closed(h) && SlotIn(h, KeySlot(id, key)) && ValIn(h, v)
    requires Step(h, Ref(id), k).value.slot != Some(KeySlot(id, key))
    ensures Step(WriteSlot(h, KeySlot(id, key), v), Ref(id), k).value.value == Step(h, Ref(id), k).value.value
  {
    var fs := h.objs[id].fields;
    var fs' := WriteSlot(h, KeySlot(id, key), v).objs[id].fields;
    match Lookup(fs, key)
    case Some(i) =>
      assert SameKeys(fs, fs');
      LookupSameKeys(fs, fs', k);
      if k != key {
        var j := Lookup(fs, k);
        if j.Some? {
          assert j.value != i;
        }
      }
    case None =>
      assert fs' == fs + [Field(key, Plain(v))];
      if k != key {
        LookupAppend(fs, Field(key, Plain(v)), k);
      }
  }

  /** A path read that does not touch location `s` reads the same after `s`
      is written. */
  lemma {:induction false} WalkFrame(h: Heap, s: Slot, v: Val, u: Val, segs: seq<Key>)
    requires Closed(h) && SlotIn(h, s) && ValIn(h, v) && ValIn(h, u)
    requires s !in WalkSlots(h, u, segs)
    ensures ValIn(WriteSlot(h, s, v), u)
    ensures Walk(WriteSlot(h, s, v), u, segs) == Walk(h, u, segs)
    decreases |segs|
  {
    var h' := WriteSlot(h, s, v);
    if |segs| > 0 {
      StepFrame(h, s, v, u, segs[0]);
      match Step(h, u, segs[0])
      case Err(_) =>
      case Ok(rd) =>
        WalkFrame(h, s, v, rd.value, segs[1..]);
    }
  }

  /** After writing location `s`, a read that found its value at `s` finds
      the value written. */
  lemma StepReadsWrite(h: Heap, v: Val, id: ObjId, k: Key)
    requires Closed(h) && ValIn(h, v) && id < |h.objs|
    requires Step(h, Ref(id), k).value.slot.Some?
    ensures SlotIn(h, Step(h, Ref(id), k).value.slot.value)
    ensures Step(WriteSlot(h, Step(h, Ref(id), k).value.slot.value, v), Ref(id), k).Ok?
    ensures Step(WriteSlot(h, Step(h, Ref(id), k).value.slot.value, v), Ref(id), k).value.value == v
  {
    var s := Step(h, Ref(id), k).value.slot.value;
    var h' := WriteSlot(h, s, v);
    var n := h.objs[id];
    match n
    case List(es) =>
    case Record(fs) =>
      match Lookup(fs, k)
      case Some(i) =>
        LookupSameKeys(fs, h'.objs[id].fields, k);
      case None =>
        assert h'.objs[id].fields == fs + [Field(k, Plain(v))];
        LookupAppendNew(fs, Field(k, Plain(v)));
  }
}

=== FILE: roundtrip.dfy ===
/**
  `resolveFn.setValue` against `resolveFn.getValue`: what a write changes,
  what a later read of the same path and of other paths sees.

  The exact heap effects are stated with no watcher active (`Dep.target`
  null), which is the case between the construction of watchers, where
  `setValue` is called from input handlers; the frame and the read-back
  of scalars hold under any `Dep.target`.
 */
module RoundTrip {
  import opened Values
  import opened Paths
  import opened Heaps
  import opened Resolver
  import opened Observer
  import opened Engine
  import opened Propagation

  /** Walking a path one segment longer takes one more step. */
  lemma {:induction false} WalkAppend(h: Heap, u: Val, pre: seq<Key>, k: Key)
    requires Closed(h) && ValIn(h, u) && Walk(h, u, pre).Ok?
    ensures Walk(h, u, pre + [k]) == Walk(h, Walk(h, u, pre).value, [k])
    decreases |pre|
  {
    if |pre| == 0 {
      assert pre + [k] == [k];
    } else {
      var rd := Step(h, u, pre[0]).value;
      assert (pre + [k])[0] == pre[0] && (pre + [k])[1..] == pre[1..] + [k];
      WalkAppend(h, rd.value, pre[1..], k);
    }
  }

  /** A read that finds its value in a reactive cell returns that cell's value. */
  lemma StepCellValue(h: Heap, u: Val, k: Key, c: CellId)
    requires Closed(h) && ValIn(h, u) && Step(h, u, k).Ok?
    requires Step(h, u, k).value.slot == Some(CellSlot(c))
    ensures c < |h.cells| && Step(h, u, k).value.value == h.cells[c].value
  {
  }

  /** After `observe`, a read finds its value where it did before, or in a
      cell `observe` created. */
  lemma StepKeptOrFresh(h: Heap, h': Heap, t: Option<WatcherId>, u: Val, k: Key)
    requires Closed(h) && Closed(h') && Preserves(h, h', t) && ValIn(h, u) && ValIn(h', u)
    requires Step(h, u, k).Ok?
    ensures Step(h', u, k).Ok?
    ensures var s' := Step(h', u, k).value.slot;
      s' == Step(h, u, k).value.slot || (s'.Some? && s'.value.CellSlot? && s'.value.c >= |h.cells|)
  {
    if u.Ref? {
      var n, n' := h.objs[u.id], h'.objs[u.id];
      assert SameNode(h, h', n, n');
      match n
      case List(es) =>
      case Record(fs) =>
        LookupSameKeys(fs, n'.fields, k);
        assert NodeKeptOrFresh(h, n, n');
        match Lookup(fs, k)
        case None =>
        case Some(i) =>
          assert PropKeptOrFresh(h, fs[i].prop, n'.fields[i].prop);
    }
  }

  lemma {:induction false} WalkSlotsKeptOrFresh(h: Heap, h': Heap, t: Option<WatcherId>, u: Val, segs: seq<Key>)
    requires Closed(h) && Closed(h') && Preserves(h, h', t) && ValIn(h, u)
    ensures ValIn(h', u)
    ensures forall s :: s in WalkSlots(h', u, segs) ==>
      s in WalkSlots(h, u, segs) || (s.CellSlot? && s.c >= |h.cells|)
    decreases |segs|
  {
    if |segs| > 0 {
      StepSameValues(h, h', u, segs[0]);
      if Step(h, u, segs[0]).Ok? {
        StepKeptOrFresh(h, h', t, u, segs[0]);
        var rd, rd' := Step(h, u, segs[0]).value, Step(h', u, segs[0]).value;
        WalkSlotsKeptOrFresh(h, h', t, rd.value, segs[1..]);
      }
    }
  }

  /** The object the leading segments of `path` lead to, if they lead to one. */
  function Owner(st: State, path: string): (r: Option<ObjId>)
    requires Valid(st)
    ensures r.Some? ==> r.value < |st.heap.objs|
    ensures r.Some? <==>
      (Walk(st.heap, st.root, Parent(path)).Ok? && Walk(st.heap, st.root, Parent(path)).value.Ref?)
    ensures r.Some? ==> Walk(st.heap, st.root, Parent(path)) == Ok(Ref(r.value))
  {
    var x := Walk(st.heap, st.root, Parent(path));
    if x.Ok? && x.value.Ref? then Some(x.value.id) else None
  }

  /** The location `path` names: where `getValue` finds its last segment and
      where `setValue` stores it. There is none for a key an array does not
      have, for an array's `length`, or for a property of a primitive. */
  function Target(st: State, path: string): (r: Option<Slot>)
    requires Valid(st)
    ensures r.Some? ==> Owner(st, path).Some? && SlotIn(st.heap, r.value)
    ensures r.Some? ==> r == Step(st.heap, Ref(Owner(st, path).value), LastKey(path)).value.slot
  {
    match Owner(st, path)
    case None => None
    case Some(id) => Step(st.heap, Ref(id), LastKey(path)).value.slot
  }

  /** What the reactive setter does to the heap with no watcher active:
      nothing on an equal value; otherwise `observe` of the new value,
      followed by the store unless `observe` overflowed. */
  lemma SetWrites(st: State, c: CellId, v: Val, keep: bool)
    requires Valid(st) && ValIn(st.heap, v) && st.target.None? && c < |st.heap.cells|
    ensures var h' := Set(st, c, v, keep).st.heap;
      && (v == st.heap.cells[c].value ==> h' == st.heap)
      && (v != st.heap.cells[c].value ==>
            var o := Observe(st.heap, v, |st.heap.objs|, None, keep);
            h' == if o.res.Ok? then WriteSlot(o.st, CellSlot(c), v) else o.st)
  {
    if v != st.heap.cells[c].value {
      var o := Observe(st.heap, v, |st.heap.objs|, None, keep);
      if o.res.Ok? {
        var st1 := Stored(st, c, v, keep);
        assert Set(st, c, v, keep) == Notify(st1, st1.heap.cells[c].subs);
      }
    }
  }

  /** What the assignment `obj[k] = v` does to the heap, with no watcher
      active, when `obj[k]` is a location: a plain store; for a reactive
      property, nothing on an equal value, and otherwise `observe` of the new
      value followed by the store unless `observe` overflowed. Notification
      leaves the heap alone. */
  lemma AssignWrites(st: State, id: ObjId, k: Key, v: Val, keep: bool)
    requires Valid(st) && ValIn(st.heap, v) && st.target.None? && id < |st.heap.objs|
    requires Step(st.heap, Ref(id), k).value.slot.Some?
    ensures var s := Step(st.heap, Ref(id), k).value.slot.value;
      var h' := Assign(st, Ref(id), k, v, keep).st.heap;
      && SlotIn(st.heap, s)
      && (!s.CellSlot? ==> h' == WriteSlot(st.heap, s, v))
      && (s.CellSlot? && v == st.heap.cells[s.c].value ==> h' == st.heap)
      && (s.CellSlot? && v != st.heap.cells[s.c].value ==>
            var o := Observe(st.heap, v, |st.heap.objs|, None, keep);
            h' == if o.res.Ok? then WriteSlot(o.st, s, v) else o.st)
  {
    match st.heap.objs[id]
    case List(es) =>
    case Record(fs) =>
      match Lookup(fs, k)
      case None =>
      case Some(i) =>
        assert NodeIn(st.heap, st.heap.objs[id]) && PropIn(st.heap, fs[i].prop);
        match fs[i].prop
        case Plain(_) =>
        case Reactive(c) =>
          SetWrites(st, c, v, keep);
  }

  /** `setValue` on a path that names a location writes that location, as
      `AssignWrites` describes. */
  lemma SetValueWrites(st: State, path: string, v: Val, keep: bool)
    requires Valid(st) && ValIn(st.heap, v) && st.target.None? && Target(st, path).Some?
    ensures var s := Target(st, path).value;
      var h' := SetValue(st, path, v, keep).st.heap;
      && (!s.CellSlot? ==> h' == WriteSlot(st.heap, s, v))
      && (s.CellSlot? && v == st.heap.cells[s.c].value ==> h' == st.heap)
      && (s.CellSlot? && v != st.heap.cells[s.c].value ==>
            var o := Observe(st.heap, v, |st.heap.objs|, None, keep);
            h' == if o.res.Ok? then WriteSlot(o.st, s, v) else o.st)
  {
    var id := Owner(st, path).value;
    assert ReadPath(st, Parent(path)) == Outcome(st, Ok(Ref(id)));
    assert SetValue(st, path, v, keep) == Assign(st, Ref(id), LastKey(path), v, keep);
    AssignWrites(st, id, LastKey(path), v, keep);
  }

  /** `setValue` on a path that names a reactive property runs that
      property's setter, with no watcher active. */
  lemma SetValueSets(st: State, path: string, v: Val, keep: bool, c: CellId)
    requires Valid(st) && ValIn(st.heap, v) && st.target.None? && Target(st, path) == Some(CellSlot(c))
    ensures c < |st.heap.cells|
    ensures SetValue(st, path, v, keep) == Set(st, c, v, keep)
  {
    var id := Owner(st, path).value;
    var k := LastKey(path);
    assert ReadPath(st, Parent(path)) == Outcome(st, Ok(Ref(id)));
    assert SetValue(st, path, v, keep) == Assign(st, Ref(id), k, v, keep);
    var fs := st.heap.objs[id].fields;
    var i := Lookup(fs, k).value;
    assert NodeIn(st.heap, st.heap.objs[id]) && PropIn(st.heap, fs[i].prop);
  }

  /** The path names a location that is not on the way to itself, so a
      write to it is not undone by reading the path's leading segments. */
  ghost predicate Writable(st: State, path: string)
    requires Valid(st)
  {
    Target(st, path).Some? && Target(st, path).value !in WalkSlots(st.heap, st.root, Parent(path))
  }

  /** Observing the value written into a reactive property succeeds and
      leaves that property's accessor in place. It fails when the value
      reaches the property's own object, whose accessors `observe` replaces. */
  ghost predicate ObserveKeeps(st: State, path: string, v: Val, keep: bool)
    requires Valid(st) && ValIn(st.heap, v)
  {
    var s := Target(st, path);
    s.Some? && s.value.CellSlot? && v != st.heap.cells[s.value.c].value ==>
      var o := Observe(st.heap, v, |st.heap.objs|, None, keep);
      && o.res.Ok?
      && Step(o.st, Ref(Owner(st, path).value), LastKey(path)).value.slot == s
  }

  /** Writing `v` to the location the last segment names, when that
      location is not on the way to it, makes the whole path read `v`. */
  lemma WriteReadsBack(h: Heap, root: Val, pre: seq<Key>, k: Key, id: ObjId, v: Val)
    requires Closed(h) && ValIn(h, root) && ValIn(h, v) && id < |h.objs|
    requires Walk(h, root, pre) == Ok(Ref(id)) && Step(h, Ref(id), k).value.slot.Some?
    requires Step(h, Ref(id), k).value.slot.value !in WalkSlots(h, root, pre)
    ensures Walk(WriteSlot(h, Step(h, Ref(id), k).value.slot.value, v), root, pre + [k]) == Ok(v)
  {
    var s := Step(h, Ref(id), k).value.slot.value;
    StepReadsWrite(h, v, id, k);
    WalkFrame(h, s, v, root, pre);
    WalkAppend(WriteSlot(h, s, v), root, pre, k);
  }

  /** `getValue` after `setValue` on the same path reads the value written. */
  lemma SetThenGet(st: State, path: string, v: Val, keep: bool)
    requires Valid(st) && ValIn(st.heap, v) && st.target.None?
    requires Writable(st, path) && ObserveKeeps(st, path, v, keep)
    ensures GetValue(SetValue(st, path, v, keep).st, path).res == Ok(v)
  {
    var h := st.heap;
    var s := Target(st, path).value;
    var id := Owner(st, path).value;
    var pre, k := Parent(path), LastKey(path);
    SetValueWrites(st, path, v, keep);
    var st' := SetValue(st, path, v, keep).st;
    var h' := st'.heap;
    SplitParent(path);
    if !s.CellSlot? {
      WriteReadsBack(h, st.root, pre, k, id, v);
    } else if v == h.cells[s.c].value {
      StepCellValue(h, Ref(id), k, s.c);
      WalkAppend(h', st.root, pre, k);
    } else {
      var h1 := Observe(h, v, |h.objs|, None, keep).st;
      assert SameValues(h, h1);
      WalkSameValues(h, h1, st.root, pre);
      WalkSlotsKeptOrFresh(h, h1, None, st.root, pre);
      WriteReadsBack(h1, st.root, pre, k, id, v);
    }
  }

  /** What the reactive setter does to the data under any `Dep.target`:
      nothing on an equal value; otherwise `observe` of the new value,
      followed by the store unless `observe` overflowed. The notification
      that follows only adds subscriptions. */
  lemma SetWritesData(st: State, c: CellId, v: Val, keep: bool)
    requires Valid(st) && ValIn(st.heap, v) && c < |st.heap.cells|
    ensures var h' := Set(st, c, v, keep).st.heap;
      && (v == st.heap.cells[c].value ==> h' == st.heap)
      && (v != st.heap.cells[c].value ==>
            var o := Observe(st.heap, v, |st.heap.objs|, st.target, keep);
            SameData(if o.res.Ok? then WriteSlot(o.st, CellSlot(c), v) else o.st, h'))
  {
    if v != st.heap.cells[c].value {
      var o := Observe(st.heap, v, |st.heap.objs|, st.target, keep);
      if o.res.Ok? {
        var st1 := Stored(st, c, v, keep);
        assert st1.heap == WriteSlot(o.st, CellSlot(c), v);
        assert Set(st, c, v, keep) == Notify(st1, st1.heap.cells[c].subs);
      } else {
        SameDataRefl(o.st);
      }
    }
  }

  /** `AssignWrites` under any `Dep.target`, up to subscriptions. */
  lemma AssignWritesData(st: State, id: ObjId, k: Key, v: Val, keep: bool)
    requires Valid(st) && ValIn(st.heap, v) && id < |st.heap.objs|
    requires Step(st.heap, Ref(id), k).value.slot.Some?
    ensures var s := Step(st.heap, Ref(id), k).value.slot.value;
      var h' := Assign(st, Ref(id), k, v, keep).st.heap;
      && SlotIn(st.heap, s)
      && (!s.CellSlot? ==> h' == WriteSlot(st.heap, s, v))
      && (s.CellSlot? && v == st.heap.cells[s.c].value ==> h' == st.heap)
      && (s.CellSlot? && v != st.heap.cells[s.c].value ==>
            var o := Observe(st.heap, v, |st.heap.objs|, st.target, keep);
            SameData(if o.res.Ok? then WriteSlot(o.st, s, v) else o.st, h'))
  {
    match st.heap.objs[id]
    case List(es) =>
    case Record(fs) =>
      match Lookup(fs, k)
      case None =>
      case Some(i) =>
        assert NodeIn(st.heap, st.heap.objs[id]) && PropIn(st.heap, fs[i].prop);
        match fs[i].prop
        case Plain(_) =>
        case Reactive(c) =>
          SetWritesData(st, c, v, keep);
  }

  /** `setValue` under any `Dep.target`, on a path that names a location:
      the reads of the leading segments change no data, then the location is
      written as `SetValueWrites` describes, up to subscriptions. */
  lemma SetValueWritesData(st: State, path: string, v: Val, keep: bool)
    requires Valid(st) && ValIn(st.heap, v) && Target(st, path).Some?
    ensures var hp := ReadPath(st, Parent(path)).st.heap;
      var s := Target(st, path).value;
      var h' := SetValue(st, path, v, keep).st.heap;
      && SameData(st.heap, hp) && Closed(hp) && SlotIn(hp, s)
      && (!s.CellSlot? ==> h' == WriteSlot(hp, s, v))
      && (s.CellSlot? && v == st.heap.cells[s.c].value ==> h' == hp)
      && (s.CellSlot? && v != st.heap.cells[s.c].value ==>
            var o := Observe(hp, v, |hp.objs|, st.target, keep);
            SameData(if o.res.Ok? then WriteSlot(o.st, s, v) else o.st, h'))
  {
    var pre := ReadPath(st, Parent(path));
    var hp := pre.st.heap;
    var id := Owner(st, path).value;
    var k := LastKey(path);
    assert SetValue(st, path, v, keep) == Assign(pre.st, Ref(id), k, v, keep);
    assert Step(hp, Ref(id), k) == Step(st.heap, Ref(id), k);
    AssignWritesData(pre.st, id, k, v, keep);
  }

  /** `setValue` on a path that names no location changes no data: it
      throws, assigns to a primitive, or is an array write left out of the
      model. */
  lemma SetValueNoTarget(st: State, path: string, v: Val, keep: bool)
    requires Valid(st) && ValIn(st.heap, v) && Target(st, path).None?
    ensures SameData(st.heap, SetValue(st, path, v, keep).st.heap)
  {
    var pre := ReadPath(st, Parent(path));
    if pre.res.Ok? && pre.res.value.Ref? {
      var id := pre.res.value.id;
      var k := LastKey(path);
      assert Owner(st, path) == Some(id);
      assert Step(pre.st.heap, Ref(id), k) == Step(st.heap, Ref(id), k);
      assert SetValue(st, path, v, keep) == Assign(pre.st, Ref(id), k, v, keep);
      match pre.st.heap.objs[id]
      case Record(fs) =>
      case List(es) =>
        assert ArrayIndex("length").None? by {
          assert !IsDigit("length"[0]);
        }
    }
  }

  /** A scalar is never observed: under any `Dep.target`, `setValue` of a
      scalar to a location stores it there and changes no other data. */
  lemma SetScalarWrites(st: State, path: string, v: Val, keep: bool)
    requires Valid(st) && !v.Ref? && Target(st, path).Some?
    ensures var hp := ReadPath(st, Parent(path)).st.heap;
      var s := Target(st, path).value;
      && Closed(hp) && SameData(st.heap, hp) && SlotIn(hp, s)
      && SameData(WriteSlot(hp, s, v), SetValue(st, path, v, keep).st.heap)
  {
    SetValueWritesData(st, path, v, keep);
    var hp := ReadPath(st, Parent(path)).st.heap;
    var s := Target(st, path).value;
    var h' := SetValue(st, path, v, keep).st.heap;
    if s.CellSlot? && v == st.heap.cells[s.c].value {
      assert hp.cells[s.c].value == v;
    } else if !s.CellSlot? {
      SameDataRefl(h');
    }
  }

  /** Scalars are never observed, so a scalar written to a location that is
      not on its own path always reads back, whatever `Dep.target` is. */
  lemma SetScalarThenGet(st: State, path: string, v: Val, keep: bool)
    requires Valid(st) && !v.Ref? && Writable(st, path)
    ensures GetValue(SetValue(st, path, v, keep).st, path).res == Ok(v)
  {
    var s := Target(st, path).value;
    var id := Owner(st, path).value;
    var pre, k := Parent(path), LastKey(path);
    var hp := ReadPath(st, pre).st.heap;
    var h' := SetValue(st, path, v, keep).st.heap;
    var hw := WriteSlot(hp, s, v);
    SetScalarWrites(st, path, v, keep);
    SplitParent(path);
    WalkSameData(st.heap, hp, st.root, pre);
    assert Step(hp, Ref(id), k) == Step(st.heap, Ref(id), k);
    WriteReadsBack(hp, st.root, pre, k, id, v);
    WalkSameData(hw, h', st.root, Split(path));
  }

  /** `setValue` on one path leaves the value of every other path alone,
      whatever `Dep.target` is, as long as the other path does not go
      through the location written. */
  lemma SetValueFrame(st: State, path: string, v: Val, keep: bool, other: string)
    requires Valid(st) && ValIn(st.heap, v)
    requires Target(st, path).Some? ==> Target(st, path).value !in WalkSlots(st.heap, st.root, Split(other))
    ensures GetValue(SetValue(st, path, v, keep).st, other).res == GetValue(st, other).res
  {
    var segs := Split(other);
    var h' := SetValue(st, path, v, keep).st.heap;
    if Target(st, path).None? {
      SetValueNoTarget(st, path, v, keep);
      WalkSameData(st.heap, h', st.root, segs);
    } else {
      var s := Target(st, path).value;
      var hp := ReadPath(st, Parent(path)).st.heap;
      SetValueWritesData(st, path, v, keep);
      WalkSameData(st.heap, hp, st.root, segs);
      if !s.CellSlot? {
        WalkFrame(hp, s, v, st.root, segs);
      } else if v != st.heap.cells[s.c].value {
        var o := Observe(hp, v, |hp.objs|, st.target, keep);
        assert SameValues(hp, o.st);
        WalkSameValues(hp, o.st, st.root, segs);
        if o.res.Ok? {
          WalkSlotsKeptOrFresh(hp, o.st, st.target, st.root, segs);
          WalkFrame(o.st, s, v, st.root, segs);
          WalkSameData(WriteSlot(o.st, s, v), h', st.root, segs);
        } else {
          WalkSameData(o.st, h', st.root, segs);
        }
      }
    }
  }
}

=== FILE: values.dfy ===
/**
  Values of the data graph, the failures the engine can raise, and the
  canonical array-index keys that JavaScript accepts on arrays and strings.
 */
module Values {

  type Key = string
  type ObjId = nat
  type CellId = nat
  type WatcherId = nat

  /** A JavaScript value as the engine sees it. Objects and arrays live in the
      heap and are referred to by id, so strict inequality (`!==`) on two
      references is inequality of their ids, and on primitives it is
      inequality of the primitive values. */
  datatype Val =
    | Undefined
    | Null
    | Num(n: int)
    | Str(s: string)
    | Bool(b: bool)
    | Ref(id: ObjId)

  /** What can be thrown out of the core:
      - TypeError: a property read or write on `undefined` or `null`;
      - StackOverflow: `observe` recursing forever around a cycle;
      - Unmodelled: an array write other than to an existing index. */
  datatype Fault = TypeError | StackOverflow | Unmodelled

  datatype Option<T> = None | Some(value: T)

  datatype Result<T> = Ok(value: T) | Err(fault: Fault)

  /** A step of the engine: the state it leaves behind, whether or not it
      threw, and its result. */
  datatype Outcome<S, T> = Outcome(st: S, res: Result<T>)

  predicate IsDigit(c: char) {
    '0' <= c <= '9'
  }

  predicate AllDigits(s: string) {
    forall i :: 0 <= i < |s| ==> IsDigit(s[i])
  }

  function DigitValue(c: char): nat
    requires IsDigit(c)
  {
    c as int - '0' as int
  }

  /** The number a string of decimal digits denotes. */
  function DigitsValue(s: string): nat
    requires AllDigits(s)
    decreases |s|
  {
    if |s| == 0 then 0 else DigitsValue(s[..|s| - 1]) * 10 + DigitValue(s[|s| - 1])
  }

  /** A canonical array index: decimal digits without a leading zero. */
  predicate Canonical(k: Key) {
    |k| > 0 && AllDigits(k) && (k[0] != '0' || |k| == 1)
  }

  /** The array index a property key denotes, if any. */
  function ArrayIndex(k: Key): (r: Option<nat>)
    ensures r.Some? <==> Canonical(k)
  {
    if Canonical(k) then Some(DigitsValue(k)) else None
  }

  function DigitChar(d: nat): (c: char)
    requires d < 10
    ensures IsDigit(c) && DigitValue(c) == d
  {
    ('0' as int + d) as char
  }

  /** The key `String(i)` under which an array holds its element `i`: a
      canonical index that denotes `i` again. */
  function IndexKey(i: nat): (k: Key)
    ensures Canonical(k) && ArrayIndex(k) == Some(i)
    ensures i > 0 ==> k[0] != '0'
    decreases i
  {
    if i < 10 then
      var k := [DigitChar(i)];
      assert k[..0] == [] && DigitsValue(k) == DigitValue(k[0]);
      k
    else
      var p := IndexKey(i / 10);
      var k := p + [DigitChar(i % 10)];
      assert k[..|k| - 1] == p && k[|k| - 1] == DigitChar(i % 10);
      assert AllDigits(k) by {
        assert forall j :: 0 <= j < |p| ==> k[j] == p[j];
      }
      assert DigitsValue(k) == DigitsValue(p) * 10 + i % 10;
      k
  }
}
